=== FILE: README.md ===
# cepheus terminal core in Dafny

A model of the core of cepheus, a desktop terminal built on Tauri. It has a Rust
backend and a Leptos/WASM frontend.

The model covers these parts:
- the bounded output history, with its one-time truncation warning;
- the shell session state: working directory, busy flag and child PID;
- the backend commands `execute_command`, `cancel_command`, `get_history`,
  `get_cwd` and `change_directory`;
- the `CommandResponse` value;
- the tagged encoding of output lines;
- the frontend's pure helpers (CSS class, unique key, prompt abbreviation,
  line content, scroll stickiness) and its terminal state;
- the selection step of log retention.

Everything is written as pure functions over immutable values. The operating
system is an input, never a call:
- `Engine.Run` holds the spawn outcome, the lines each pipe yields and the wait
  outcome. The order in which the two reader tasks land lines in history is a
  schedule.
- `Engine.Fs` answers directory checks and canonicalisation.
- The result of sending a signal is a parameter.
- The clock is the `now` argument.

Each backend command is modelled as one function over the manager, from its
state before the call to its state after. `execute_command` takes several locks
in turn, and the states between them are named too:
- `Engine.Claim`: `set_busy(true)` and the echo line;
- `Engine.Drained`: the PID stored and the pipes' lines pushed;
- `Engine.ReleaseBusy`: `set_busy(false)`;
- `Engine.ClearPid`: the PID cleared.

Between `ReleaseBusy` and `ClearPid` the session is idle yet still holds the
PID. `Engine.CleanupWindow` exhibits that state and shows what `get_pid`,
`get_running_pid` and `cancel_command` see in it. The gap between the `is_busy`
check and `set_busy(true)` is not split, because the model runs one call at a
time.

| file | module | models |
|---|---|---|
| `wrappers.dfy` | `Wrappers` | `Option`, `Result` |
| `strings.dfy` | `Strings` | `contains`, `split('/')`, `trim().is_empty()`, UTF-8 byte length, zero-padded hex and decimal rendering |
| `output.dfy` | `Output` | `OutputLine`, `NotificationLevel`, accessors, the `{"type", "data"}` encoding |
| `history.dfy` | `History` | `HistoryBuffer` |
| `command.dfy` | `CommandModel` | `CommandResponse` |
| `session.dfy` | `Session` | `ShellState`, `ShellManager` |
| `engine.dfy` | `Engine` | the five backend commands |
| `line_view.dfy` | `LineView` | `css_class`, `unique_key` |
| `terminal_state.dfy` | `TerminalStateModel` | the frontend `TerminalState` |
| `prompt.dfy` | `Prompt` | `format_cwd` |
| `output_display.dfy` | `OutputDisplay` | `format_line_content`, the sticky-scroll test |
| `log_retention.dfy` | `LogRetention` | the selection in `cleanup_old_logs` |

The history buffer is modelled as the code is written. On push at or over
capacity it evicts the oldest line. The first time that happens it also appends
the truncation warning. Then it appends the new line. So the proved bound is
`len <= capacity + 1` once the warning is in, not `len <= capacity`:
- `History.OverflowReached` exhibits capacity 3 holding 4 lines.
- `History.OverfullFromNew` shows that every overfilled buffer ends at exactly
  `capacity + 1`.

The comments and property tests in `history_buffer.rs` state this `+ 1`. The
buffer's own doc comment (`history_buffer.rs` line 15, "max 10,000 lines")
promises `len <= capacity` and so disagrees with the code; the model follows
the code.

Two tests expect exactly `capacity` lines after overflow and so disagree with
`push`:
- `src-tauri/test_capacity_bug.rs` (lines 29-30);
- the integration test at `src-tauri/tests/shell_commands.rs` (line 245).

The integration tests' `execute_command_test` helper is also a diverged copy of
`execute_command`. It claims with `try_set_busy` and calls constructors that
`command.rs` does not define. Neither file is modelled.

## Model

| member | source | states |
|---|---|---|
| Strings.Contains | src-tauri/src/state/history_buffer.rs:91-99 | `str::contains` holds exactly when some window of the string equals the pattern |
| Strings.Split | src/components/prompt_indicator.rs:39-40 | `split('/')` yields one more part than there are separators; the parts contain no separator and re-join to the input |
| Strings.JoinEndsWithLastTwo | src/components/prompt_indicator.rs:39-41 | with at least three parts, `/a/b` built from the last two parts is a suffix of the path |
| Strings.Utf8Len | src/components/prompt_indicator.rs:38 | `str::len` counts UTF-8 bytes: between one and four per character |
| Strings.Hex | src/models/output_line.rs:86 | `{:016x}` renders exactly the requested number of lowercase hex digits |
| Strings.HexRoundTrip | src/models/output_line.rs:86 | reading back a `w`-digit rendering of `n < 16^w` gives `n`, so the rendering is injective |
| Strings.Pow16Is2To64 | src/models/output_line.rs:86 | sixteen hex digits cover the whole `u64` range |
| Strings.DecimalRoundTrip | src-tauri/src/commands/shell.rs:181 | decimal rendering of a natural number reads back to the number |
| Strings.IntToDecimal | src-tauri/src/commands/shell.rs:181 | a signed rendering is `-` exactly for negative numbers, then decimal digits without a leading zero that read back as the magnitude |
| Strings.DecimalCanonical | src-tauri/src/commands/shell.rs:181 | digits without a leading zero are the rendering of their own value, so the `{}` format of a number is unique |
| Strings.IntToDecimalUnique | src-tauri/src/commands/shell.rs:181 | any string with a sign exactly for negatives, then canonical digits of the magnitude, is the rendering of that integer |
| Strings.IntToDecimalInjective | src-tauri/src/commands/shell.rs:181 | distinct integers render as distinct strings |
| Strings.IsBlank | src-tauri/src/commands/shell.rs:31 | `trim().is_empty()`: every character is whitespace; `Engine.Execute` refuses exactly these commands |
| Output.Timestamp | src-tauri/src/models/output.rs:26-33 | `timestamp()` returns the variant's own timestamp field |
| Output.Text | src-tauri/src/models/output.rs:36-43 | `text()` is the `text` field, or the `message` for a notification |
| Output.Field | src-tauri/src/models/output.rs:1-23 | a key lookup finds a value exactly when some field carries that key, and the value found is stored under it |
| Output.Encode | src-tauri/src/models/output.rs:1-23 | a line is tagged by `type` with the variant name and carries its fields under `data` |
| Output.Decode | src-tauri/src/models/output.rs:1-23 | a successful decode read a `type` tag naming the variant it returns |
| Output.EncodeDecodeRoundTrip | src-tauri/src/models/output.rs:60-118 | decoding an encoded line gives the same line back, for all four variants |
| Output.AccessorsMatchEncoding | src-tauri/src/models/output.rs:26-43 | `text()` and `timestamp()` agree with the serialised `text`/`message` and `timestamp` fields |
| History.New | src-tauri/src/state/history_buffer.rs:27-33 | a new buffer is empty with the latch clear, and satisfies the capacity bound |
| History.Push | src-tauri/src/state/history_buffer.rs:36-57 | the new line ends the buffer; below capacity nothing else changes; at capacity the oldest line goes, the warning is added once, and the latch records it |
| History.GetAll | src-tauri/src/state/history_buffer.rs:60-62 | the snapshot is exactly the buffer's lines, in order, `len()` of them |
| History.Len | src-tauri/src/state/history_buffer.rs:65-67 | the line count; `History.IsEmpty`, `History.PushKeepsBounded` and `History.OverfullFromNew` are stated through it |
| History.IsEmpty | src-tauri/src/state/history_buffer.rs:70-72 | empty exactly when `len()` is 0 |
| History.Clear | src-tauri/src/state/history_buffer.rs:75-78 | clearing gives a new buffer of the same capacity: empty, latch reset |
| History.First | src-tauri/src/state/history_buffer.rs:86-88 | `first()` is absent exactly on an empty buffer, and otherwise is the oldest line |
| History.HasTruncationWarning | src-tauri/src/state/history_buffer.rs:81-83 | the latch; `History.FirstEviction` and `History.LatchMonotone` state when it is set and that it stays set |
| History.ContainsWarning | src-tauri/src/state/history_buffer.rs:91-99 | true exactly when some notification line's message contains the pattern |
| History.PushKeepsBounded | src-tauri/src/state/history_buffer.rs:169-180 | with capacity at least 1, a push keeps `len <= capacity + (latch ? 1 : 0)`, so `len <= capacity + 1` |
| History.PushLinesBounded | src-tauri/src/state/history_buffer.rs:327-341 | any sequence of pushes keeps that bound |
| History.OverflowReached | src-tauri/src/state/history_buffer.rs:143-180 | capacity 3 after four pushes holds four lines, so `len <= capacity` is false as written |
| History.ZeroCapacityExceedsBound | src-tauri/src/state/history_buffer.rs:41-55 | with capacity 0 one push leaves two lines, so even `capacity + 1` fails |
| History.PushLinesAppend | src-tauri/src/state/history_buffer.rs:36-57 | pushing `xs` then `ys` is pushing `xs + ys` |
| History.FillWithoutEviction | src-tauri/src/state/history_buffer.rs:345-370 | while there is room, pushes append in order and leave the latch alone |
| History.FirstEviction | src-tauri/src/state/history_buffer.rs:185-207 | exactly `capacity` pushes keep every line; the next one evicts the oldest, inserts the warning before the new line, sets the latch, and `contains_warning("truncated")` holds |
| History.WarningFound | src-tauri/src/state/history_buffer.rs:91-99 | a buffer holding the warning line answers `contains_warning("truncated")` |
| History.SaturatedStaysFull | src-tauri/src/state/history_buffer.rs:236-250 | once the warning is in and the buffer is at `capacity + 1`, it stays there and the latch stays set |
| History.OverfullFromNew | src-tauri/src/state/history_buffer.rs:373-388 | pushing more than `capacity` lines into a new buffer always sets the latch and ends at exactly `capacity + 1` lines |
| History.LatchMonotone | src-tauri/src/state/history_buffer.rs:210-233 | once set, the warning latch is never cleared by pushes, so the warning is added at most once |
| History.PushLinesSurvivors | src-tauri/src/state/history_buffer.rs:345-370 | after pushing plain lines, the non-notification lines kept are a suffix of the old ones followed by the pushed ones: only the oldest are lost, and order is kept |
| History.RetainedSuffixFromNew | src-tauri/src/state/history_buffer.rs:345-370 | from a new buffer, the kept lines are a suffix of the pushed ones, plus at most one notification |
| CommandModel.Success | src-tauri/src/models/command.rs:25-31 | `success` is `code == 0`, the code is recorded and there is no error |
| CommandModel.Failure | src-tauri/src/models/command.rs:34-40 | a failure is unsuccessful, has no code, and carries the message |
| CommandModel.ConstructorShapes | src-tauri/src/models/command.rs:105-110 | `success(c)` has the success/error shape exactly when `c == 0`; `failure` always has the failure shape |
| Session.New | src-tauri/src/state/shell_manager.rs:21-28 | a new session is at the given directory, idle, with no PID and no child |
| Session.GetCwd | src-tauri/src/state/shell_manager.rs:31-33 | the directory; `Session.SetCwd` states that it reads back what was set |
| Session.IsBusy | src-tauri/src/state/shell_manager.rs:41-43 | the busy flag; `Session.SetBusy` and `Session.TrySetBusy` state what it reads back |
| Session.GetPid | src-tauri/src/state/shell_manager.rs:64-66 | the stored PID whether or not busy; `Session.SetProcess`, `Session.TakeProcess` and `Engine.CancelSignalsStalePid` state what it reads back |
| Session.SetCwd | src-tauri/src/state/shell_manager.rs:36-38 | `get_cwd` reads back what was set; nothing else changes |
| Session.SetBusy | src-tauri/src/state/shell_manager.rs:46-48 | `is_busy` reads back what was set; nothing else changes |
| Session.TrySetBusy | src-tauri/src/state/shell_manager.rs:53-61 | succeeds exactly when the session was idle; the session is busy afterwards; a refusal changes nothing |
| Session.TrySetBusyTwice | src-tauri/src/state/shell_manager.rs:286-305 | from idle the first claim succeeds and the second is refused without effect |
| Session.GetPidIfBusy | src-tauri/src/state/shell_manager.rs:71-80 | the PID is reported only while busy |
| Session.SetProcess | src-tauri/src/state/shell_manager.rs:83-87 | stores the child and its id as the PID |
| Session.TakeProcess | src-tauri/src/state/shell_manager.rs:90-94 | returns the stored child and clears both child and PID |
| Session.ClearProcess | src-tauri/src/state/shell_manager.rs:97-100 | clears child and PID, keeping directory and busy flag |
| Session.TakeAfterSet | src-tauri/src/state/shell_manager.rs:83-94 | taking right after setting returns that child and leaves the cleared session |
| Session.WithCapacityAndCwd | src-tauri/src/state/shell_manager.rs:156-161 | a manager with a new session and a new buffer of the given capacity |
| Session.NewWithCwd | src-tauri/src/state/shell_manager.rs:140-146 | the same with the default capacity of 10 000 |
| Session.ManagerTrySetBusy | src-tauri/src/state/shell_manager.rs:176-178 | delegation: succeeds exactly when idle; success sets the busy flag and changes nothing else; a refusal changes nothing |
| Session.ManagerGetCwd | src-tauri/src/state/shell_manager.rs:163-166 | delegation to the session's `get_cwd`; `Engine.ChangeDirectoryThenGetCwd` states what it returns after a `cd` |
| Session.ManagerIsBusy | src-tauri/src/state/shell_manager.rs:168-171 | delegation to the session's `is_busy`; `Engine.Claim`, `Engine.ReleaseBusy` and `Engine.ExecuteReturnsToIdle` state its value |
| Session.GetRunningPid | src-tauri/src/state/shell_manager.rs:182-184 | equals the session's `get_pid_if_busy`; a PID is returned only while busy |
| Engine.Claim | src-tauri/src/commands/shell.rs:41-49 | the first step of `execute_command` leaves the session busy with the echo line pushed |
| Engine.Drained | src-tauri/src/commands/shell.rs:89-140 | storing the PID and draining the pipes sets the PID, pushes the lines and changes nothing else in the session |
| Engine.ReleaseBusy | src-tauri/src/commands/shell.rs:162-163 | `set_busy(false)` leaves the session idle and changes nothing else |
| Engine.ClearPid | src-tauri/src/commands/shell.rs:164 | clearing the PID leaves none and changes nothing else |
| Engine.CleanupWindow | src-tauri/src/commands/shell.rs:158-164 | after `set_busy(false)` and before the PID is cleared, the session is idle but holds the PID: `get_running_pid` says none while `cancel_command` still signals it; the next step gives `execute_command`'s final state |
| Engine.Interleave | src-tauri/src/commands/shell.rs:103-140 | the lines the two reader tasks push form an interleaving: each pipe's lines appear in that pipe's order, none lost or added |
| Engine.InterleavingsCovered | src-tauri/src/commands/shell.rs:103-140 | every merge of the two pipes' lines is produced by some schedule |
| Engine.Response | src-tauri/src/commands/shell.rs:166-183 | the response records the exit code; success has no error, and a failure's error is "Command exited with code " followed by the `{:?}` of the code |
| Engine.DebugCode | src-tauri/src/commands/shell.rs:181 | `{:?}` of an `Option<i32>`: `None`, or `Some(` around the decimal of the code and `)` |
| Engine.ErrorDeterminesCode | src-tauri/src/commands/shell.rs:181 | the failure message names the code: equal messages mean equal codes, and `None` is never confused with a code |
| Engine.ResponseMatchesSuccessConstructor | src-tauri/src/commands/shell.rs:166-183 | agrees with `CommandResponse::success` on `success` and `exit_code`, and equals it exactly for code 0 |
| Engine.Launch | src-tauri/src/commands/shell.rs:57-183 | a missing directory, a spawn failure and a wait failure give their errors; a spawn runs `sh -c <command>` in the right directory; pipe lines go to history; the session ends idle with no PID |
| Engine.WorkingDir | src-tauri/src/commands/shell.rs:57-67 | the given directory when there is one, otherwise the session's current directory |
| Engine.Execute | src-tauri/src/commands/shell.rs:22-184 | a blank command, then a busy session, are refused with nothing changed; otherwise the echo line is recorded first, `sh -c <command>` is spawned exactly when the directory is absent or exists, everything emitted is pushed, and the session ends idle with its directory and child untouched |
| Engine.ExecuteHistoryWithRoom | src-tauri/src/commands/shell.rs:45-140 | with room in the buffer, history afterwards is the old history, the echo line, and the interleaved output |
| Engine.ExecuteReturnsToIdle | src-tauri/src/commands/shell.rs:158-164 | after any call from idle, the next non-blank command is admitted |
| Engine.BusyRejectsWithoutEffect | src-tauri/src/commands/shell.rs:36-39 | a command sent while busy gets "Command already running" and changes nothing |
| Engine.EchoHelloWorld | src-tauri/src/commands/shell.rs:22-184 | `echo hello world` printing one line and exiting 0 gives a success with code 0 and history `[Command, Stdout "hello world"]` |
| Engine.ExitOne | src-tauri/src/commands/shell.rs:166-183 | `exit 1` gives an unsuccessful response with code 1 and an error |
| Engine.GetHistory | src-tauri/src/commands/shell.rs:221-224 | always succeeds with exactly the buffer's lines, in order |
| Engine.GetCwdCommand | src-tauri/src/commands/shell.rs:234-238 | always succeeds with the session's directory |
| Engine.AsI32 | src-tauri/src/commands/shell.rs:205 | `pid as i32` keeps PIDs below 2^31 and wraps larger ones to negatives |
| Engine.Cancel | src-tauri/src/commands/shell.rs:195-211 | with no PID, "No command currently running" and nothing signalled; otherwise SIGINT goes to the stored PID, and a send failure gives "Failed to send SIGINT: ..." |
| Engine.ExecuteKeepsPidOnlyWhenBusy | src-tauri/src/commands/shell.rs:90-91 | between whole calls, `execute_command` keeps "a PID is stored only while busy" |
| Engine.CancelTargetsRunningPid | src-tauri/src/commands/shell.rs:195-211 | under that invariant, cancel signals exactly when `get_running_pid` reports a command |
| Engine.CancelSignalsStalePid | src-tauri/src/commands/shell.rs:201-206 | without the invariant, cancel (which reads `get_pid`, not `get_pid_if_busy`) signals a stored PID even when idle |
| Engine.JoinPath | src-tauri/src/commands/shell.rs:261-264 | `Path::join` of a relative path starts with the base and ends with the relative part, adding at most one separator |
| Engine.IsRelative | src-tauri/src/commands/shell.rs:261 | `Path::is_relative` on Unix: no leading `/`; `Engine.Target` branches on it |
| Engine.Target | src-tauri/src/commands/shell.rs:258-271 | an absolute path is kept; a relative one is the session directory joined with it |
| Engine.ChangeDirectory | src-tauri/src/commands/shell.rs:251-295 | succeeds exactly when the target canonicalises to a directory; then the directory becomes the canonical path and a notification is emitted; on error nothing changes; history is never touched |
| Engine.ChangeDirectoryThenGetCwd | src-tauri/src/commands/shell.rs:234-295 | after a successful `change_directory`, `get_cwd` returns the canonical path |
| LineView.CssClass | src/models/output_line.rs:48-55 | one class per variant |
| LineView.KeyPrefix | src/models/output_line.rs:66-78 | the key's first component per variant and level; `LineView.ClassAndPrefixIdentifyKind` states it identifies the kind |
| LineView.ClassAndPrefixIdentifyKind | src/models/output_line.rs:48-80 | equal classes mean equal variants, and equal key prefixes mean equal variant and level |
| LineView.UniqueKey | src/models/output_line.rs:61-87 | the key is `prefix_`, the timestamp as 16 lowercase hex digits, `_`, and the text digest as 16 more |
| LineView.UniqueKeyDecodes | src/models/output_line.rs:61-87 | the prefix and timestamp can be read back from the key |
| LineView.DistinctKeys | src/models/output_line.rs:57-60 | lines that differ in kind or timestamp get different keys, whatever the digest |
| TerminalStateModel.New | src/models/terminal_state.rs:27-37 | empty input and history, directory `~`, idle, no notification, listener fine, input enabled |
| TerminalStateModel.ClearInput | src/models/terminal_state.rs:40-42 | the input is emptied and nothing else changes |
| TerminalStateModel.PushHistory | src/models/terminal_state.rs:45-47 | the line is appended and everything else is kept |
| TerminalStateModel.SetHistory | src/models/terminal_state.rs:50-52 | history is replaced and nothing else changes |
| TerminalStateModel.ShowNotification | src/models/terminal_state.rs:55-57 | the banner is set and nothing else changes |
| TerminalStateModel.ClearNotification | src/models/terminal_state.rs:60-62 | the banner is cleared and nothing else changes |
| TerminalStateModel.ShowThenClear | src/models/terminal_state.rs:55-62 | show then clear restores the state, except that no banner remains |
| TerminalStateModel.SetListenerFailed | src/models/terminal_state.rs:65-68 | records the failure and its message, which disables input; nothing else changes |
| TerminalStateModel.IsInputDisabled | src/models/terminal_state.rs:71-73 | disabled exactly when busy or the listener failed |
| TerminalStateModel.MirrorFollowsBackendPush | src/models/terminal_state.rs:45-52 | appending streamed lines keeps the frontend mirror equal to the backend while it has room; after the first eviction the two differ, and `set_history` after the push resynchronises the mirror and leaves every other field as it was before the push |
| Prompt.FormatCwd | src/components/prompt_indicator.rs:23-46 | no home: unchanged; under home: `~` plus the rest; otherwise paths over 50 bytes with more than three `/`-parts become `.../a/b`; all else unchanged |
| Prompt.HomeAbbreviationRoundTrip | src/components/prompt_indicator.rs:30-34 | replacing `~` by home again gives the path back; home itself shows as `~` |
| Prompt.PrefixIsNotComponentwise | src/components/prompt_indicator.rs:30 | the home test is a plain string prefix: home `/home/a` turns `/home/ab` into `~b` |
| Prompt.TruncationKeepsLastTwo | src/components/prompt_indicator.rs:38-42 | a truncated prompt is `.../a/b` where `/a/b` ends the path and `a`, `b` contain no `/` |
| OutputDisplay.FormatLineContent | src/components/output_display.rs:101-107 | commands get `$ `, output lines are shown as is, notifications get the warning sign |
| OutputDisplay.ContentIsMarkerThenText | src/components/output_display.rs:101-107 | the content is the variant's marker followed by `text()`, which is recoverable after the marker |
| OutputDisplay.WrapI32 | src/components/output_display.rs:66 | `i32` arithmetic leaves in-range values unchanged |
| OutputDisplay.AtBottom | src/components/output_display.rs:66 | the sticky-scroll test with i32 arithmetic; `OutputDisplay.AtBottomMeansWithinTen` states its meaning |
| OutputDisplay.AtBottomMeansWithinTen | src/components/output_display.rs:66 | when nothing overflows, the view is sticky exactly when it is within 10 pixels of the bottom |
| LogRetention.Logs | src-tauri/src/logging/file_logger.rs:49-57 | keeps exactly the regular files whose name contains "terminal.log" |
| LogRetention.Compare | src-tauri/src/logging/file_logger.rs:59-64 | newest first, untimed entries last; `LogRetention.CompareIsTotalPreorder` states it is a total preorder |
| LogRetention.CompareIsTotalPreorder | src-tauri/src/logging/file_logger.rs:59-64 | the comparator is total and transitive and its `Less` and `Greater` are mirror images |
| LogRetention.SortLogs | src-tauri/src/logging/file_logger.rs:59-64 | the sort is a permutation, newest first with untimed entries last |
| LogRetention.Retention | src-tauri/src/logging/file_logger.rs:43-73 | kept and deleted together are the logs; nothing is deleted up to `max_files`; beyond that exactly `max_files` are kept and the rest deleted |
| LogRetention.Paths | src-tauri/src/logging/file_logger.rs:67 | the `path` of each entry, in order and one per entry |
| LogRetention.ToDelete | src-tauri/src/logging/file_logger.rs:66-71 | with `MAX_LOG_FILES = 14` (line 7), deletes exactly the paths of the sorted logs after the first 14, in order: `count - 14` of them when there are more than 14 logs, otherwise none |
| LogRetention.DeletesOnlyLogs | src-tauri/src/logging/file_logger.rs:49-72 | every deleted entry is a listed rotated log |
| LogRetention.KeptAreNewest | src-tauri/src/logging/file_logger.rs:59-72 | every kept log is no older than every deleted one; a kept untimed log means every deleted one is untimed |

## Left out

- Locks, `Arc` sharing and `Clone`: the model is value-based, and clones are
  the same value.
- Engine.ExecuteKeepsPidOnlyWhenBusy: holds only between whole
  `execute_command` calls. Inside a call, after `set_busy(false)` and before
  the PID is cleared (`shell.rs` lines 163-164, and 151-152 on a wait failure),
  the session is idle but holds the PID. `Engine.CleanupWindow` exhibits that
  state and the `cancel_command` that still signals in it. Other interleavings
  of a concurrent `cancel_command` with those steps are not modelled.
- The concurrency window between `is_busy` and `set_busy(true)` in
  `execute_command`: two commands racing through it are not modelled. The model
  runs one call at a time.
- OS processes, pipes, signals and `wait`: these are the oracles in `Engine.Run`
  and the signal result passed to `Engine.Cancel`.
  - A read error on a pipe ends that stream, so the oracle's line list stops
    there.
  - The `child.take()` handles are not modelled. SIGINT goes to the one PID
    of `sh`, as in the code.
- The filesystem: `is_dir` and `canonicalize` are parameters (`Engine.Fs`), as
  is the directory listing given to log retention. `current_dir()` at
  `ShellManager::new`/`with_capacity` is a parameter (`initialCwd`).
- The clock: `current_timestamp_ms` is the `now` argument. When several lines
  are pushed in sequence, the warning takes the triggering line's timestamp.
- serde text, escaping and whitespace: output lines encode to a JSON value tree,
  not to bytes. Object lookup takes the first field with a key. Duplicate keys,
  number ranges and unknown fields in foreign input are not modelled.
- Tauri `emit`, event names, `tracing` calls and every `eprintln!`: none of them
  affects state.
- The `DefaultHasher` digest in `unique_key`: it is a parameter, because its
  algorithm is unstable across runs and not specified.
- Leptos views, signals, effects, `home_dir()` through `localStorage`, and DOM
  calls: the pure helpers they call are modelled instead.
- `setup_logging`: directory creation, the daily rolling appender and the filter
  setup are I/O. Only the selection in `cleanup_old_logs` is modelled; the
  `remove_file` calls are represented by the returned paths.
- `lib.rs` startup and command registration.
- LogRetention.SortLogs: it is an insertion sort that keeps equal entries in
  order, like the stable `sort_by`. Stability itself is not stated; the contract
  covers order and permutation only.
- History.Push: the warning line's timestamp is the `now` argument. In the
  source it is read from the clock inside `push`.
- History.TRUNCATION_MESSAGE: the text hard-codes "10,000" whatever the
  configured capacity. The model keeps it as written.
- Strings.IsBlank: it uses the Unicode White_Space set for `trim()`.
  Normalisation and other Unicode properties are not modelled.

=== FILE: command.dfy ===
/** `CommandResponse`, the structured result of running a command line,
    and its two constructors. */
module CommandModel {
  import opened Wrappers
  import opened Strings

  datatype CommandResponse = CommandResponse(success: bool, exitCode: Option<I32>, error: Option<string>)

  /** `CommandResponse::success(code)`: success means a zero code; the code is
      kept; no error message, even for a nonzero code. */
  function Success(code: I32): (r: CommandResponse)
    ensures r.success <==> code == 0
    ensures r.exitCode == Some(code)
    ensures r.error.None?
  {
    CommandResponse(code == 0, Some(code), None)
  }

  /** `CommandResponse::failure(e)`: not a success, no code, message `e`. */
  function Failure(e: string): (r: CommandResponse)
    ensures !r.success && r.exitCode.None? && r.error == Some(e)
  {
    CommandResponse(false, None, Some(e))
  }

  /** The shape of a response the execution engine reports: success exactly
      when the code is zero, and an error message exactly when not a success. */
  predicate WellFormed(r: CommandResponse) {
    && (r.success <==> r.exitCode == Some(0))
    && (r.error.None? <==> r.success)
  }

  /** `success` with a nonzero code builds a failed response without a message,
      so constructor results need not be well formed; `failure` results are. */
  lemma ConstructorShapes(code: I32, e: string)
    ensures WellFormed(Success(code)) <==> code == 0
    ensures WellFormed(Failure(e))
  {
  }
}

=== FILE: engine.dfy ===
/** The backend commands over a session (`execute_command`, `cancel_command`,
    `get_history`, `get_cwd`, `change_directory`). The operating system is an
    oracle: the filesystem answers `is_dir` and `canonicalize`, and one `Run`
    fixes what spawning, the two output pipes and the exit wait produce. Each
    command is a function from the manager before the call to the manager
    after it; the lock-separated steps of `execute_command` are named as well. */
module Engine {
  import opened Wrappers
  import opened Strings
  import opened Output
  import opened History
  import opened Session
  import opened CommandModel

  const EMPTY_COMMAND: string := "Command cannot be empty"
  const ALREADY_RUNNING: string := "Command already running"
  const NOTHING_RUNNING: string := "No command currently running"

  datatype SpawnOutcome = Spawned(id: Option<Pid>) | SpawnFailed(reason: string)

  /** `child.wait()`: the exit status's code (none when killed by a signal),
      or an error. */
  datatype WaitOutcome = Exited(code: Option<I32>) | WaitFailed(reason: string)

  datatype Source = FromStdout | FromStderr

  /** A line read from a pipe, with the clock reading taken for it. */
  datatype Stamped = Stamped(text: string, at: U64)

  /** What the operating system does during one `execute_command`: the clock
      reading for the echo line, the spawn outcome, the lines each pipe yields
      until end of input (or until the first read error), the order in which
      the two reader tasks push them, and the wait outcome. */
  datatype Run = Run(now: U64, spawn: SpawnOutcome, stdout: seq<Stamped>, stderr: seq<Stamped>,
                     schedule: seq<Source>, wait: WaitOutcome)

  /** `Path::is_dir` and `Path::canonicalize`. */
  datatype Fs = Fs(isDir: string -> bool, canonicalize: string -> Result<string, string>)

  /** The process `execute_command` asks for: `sh -c <command>` in `dir`. */
  datatype SpawnRequest = SpawnRequest(program: string, args: seq<string>, dir: string)

  /** Everything one `execute_command` call yields: the value returned to the
      caller, the manager afterwards, the lines emitted as "output-line" events,
      and the spawn request if the call got that far. */
  datatype Execution = Execution(result: Result<CommandResponse, string>, manager: ShellManager,
                                 emitted: seq<OutputLine>, spawned: Option<SpawnRequest>)

  // ---------------------------------------------------------------------------
  // Interleaving the two pipes
  // ---------------------------------------------------------------------------

  function CountSource(sched: seq<Source>, src: Source): nat {
    if sched == [] then 0 else (if sched[0] == src then 1 else 0) + CountSource(sched[1..], src)
  }

  /** The schedule takes exactly every line of each pipe. */
  predicate ScheduleFits(run: Run) {
    CountSource(run.schedule, FromStdout) == |run.stdout| && CountSource(run.schedule, FromStderr) == |run.stderr|
  }

  /** The lines of `ls` that came from the pipe `src`, in order. */
  function Project(ls: seq<OutputLine>, src: Source): seq<Stamped> {
    if ls == [] then []
    else
      var head := match (ls[0], src)
        case (Stdout(t, ts), FromStdout) => [Stamped(t, ts)]
        case (Stderr(t, ts), FromStderr) => [Stamped(t, ts)]
        case _ => [];
      head + Project(ls[1..], src)
  }

  /** Only `Stdout` and `Stderr` lines. */
  predicate StreamLines(ls: seq<OutputLine>) {
    forall i :: 0 <= i < |ls| ==> ls[i].Stdout? || ls[i].Stderr?
  }

  /** The history lines the two reader tasks push, in the order `sched` runs
      them: each pipe's lines keep their own order. */
  function Interleave(outs: seq<Stamped>, errs: seq<Stamped>, sched: seq<Source>): (r: seq<OutputLine>)
    requires CountSource(sched, FromStdout) == |outs| && CountSource(sched, FromStderr) == |errs|
    ensures |r| == |outs| + |errs|
    ensures StreamLines(r) && NoNotifications(r)
    ensures Project(r, FromStdout) == outs && Project(r, FromStderr) == errs
  {
    if sched == [] then []
    else if sched[0] == FromStdout then
      var rest := Interleave(outs[1..], errs, sched[1..]);
      PrependLine(Stdout(outs[0].text, outs[0].at), rest);
      assert outs == [outs[0]] + outs[1..];
      [Stdout(outs[0].text, outs[0].at)] + rest
    else
      var rest := Interleave(outs, errs[1..], sched[1..]);
      PrependLine(Stderr(errs[0].text, errs[0].at), rest);
      assert errs == [errs[0]] + errs[1..];
      [Stderr(errs[0].text, errs[0].at)] + rest
  }

  /** Prepending one stream line extends that pipe's projection by it and
      leaves the other pipe's alone. */
  lemma PrependLine(l: OutputLine, rest: seq<OutputLine>)
    requires l.Stdout? || l.Stderr?
    requires StreamLines(rest) && NoNotifications(rest)
    ensures StreamLines([l] + rest) && NoNotifications([l] + rest)
    ensures l.Stdout? ==> Project([l] + rest, FromStdout) == [Stamped(l.text, l.timestamp)] + Project(rest, FromStdout)
    ensures l.Stdout? ==> Project([l] + rest, FromStderr) == Project(rest, FromStderr)
    ensures l.Stderr? ==> Project([l] + rest, FromStderr) == [Stamped(l.text, l.timestamp)] + Project(rest, FromStderr)
    ensures l.Stderr? ==> Project([l] + rest, FromStdout) == Project(rest, FromStdout)
  {
    assert ([l] + rest)[1..] == rest;
  }

  /** The schedule that produces a given sequence of stream lines. */
  function ScheduleOf(ls: seq<OutputLine>): seq<Source> {
    if ls == [] then [] else [if ls[0].Stdout? then FromStdout else FromStderr] + ScheduleOf(ls[1..])
  }

  /** Every order of stream lines that keeps each pipe's own order is produced
      by some schedule: the oracle covers all of them. */
  lemma {:induction false} InterleavingsCovered(ls: seq<OutputLine>)
    requires StreamLines(ls)
    ensures CountSource(ScheduleOf(ls), FromStdout) == |Project(ls, FromStdout)|
    ensures CountSource(ScheduleOf(ls), FromStderr) == |Project(ls, FromStderr)|
    ensures Interleave(Project(ls, FromStdout), Project(ls, FromStderr), ScheduleOf(ls)) == ls
  {
    if ls != [] {
      InterleavingsCovered(ls[1..]);
      var outs, errs := Project(ls, FromStdout), Project(ls, FromStderr);
      var sched := ScheduleOf(ls);
      assert sched[1..] == ScheduleOf(ls[1..]);
      if ls[0].Stdout? {
        assert outs == [Stamped(ls[0].text, ls[0].timestamp)] + Project(ls[1..], FromStdout);
        assert errs == Project(ls[1..], FromStderr);
        assert outs[1..] == Project(ls[1..], FromStdout);
      } else {
        assert errs == [Stamped(ls[0].text, ls[0].timestamp)] + Project(ls[1..], FromStderr);
        assert outs == Project(ls[1..], FromStdout);
        assert errs[1..] == Project(ls[1..], FromStderr);
      }
      assert ls == [ls[0]] + ls[1..];
    }
  }

  // ---------------------------------------------------------------------------
  // execute_command
  // ---------------------------------------------------------------------------

  /** Rust's `{:?}` of an `Option<i32>`. */
  function DebugCode(code: Option<I32>): (d: string)
    ensures code.None? ==> d == "None"
    ensures code.Some? ==> IsPrefix("Some(", d) && |d| >= 7 && d[|d| - 1] == ')'
    ensures code.Some? ==> d[5..|d| - 1] == IntToDecimal(code.value)
  {
    match code
    case Some(c) => "Some(" + IntToDecimal(c) + ")"
    case None => "None"
  }

  /** The response for an exit status: success exactly for code zero; otherwise
      an error naming the code. */
  function Response(code: Option<I32>): (r: CommandResponse)
    ensures WellFormed(r)
    ensures r.exitCode == code
    ensures !r.success ==> r.error.Some? && IsPrefix("Command exited with code ", r.error.value)
    ensures !r.success ==> r.error == Some("Command exited with code " + DebugCode(code))
  {
    var success := code == Some(0);
    CommandResponse(success, code, if success then None else Some("Command exited with code " + DebugCode(code)))
  }

  /** The failure message names the exit code: two failing exits with the same
      message had the same code, and a code is never confused with `None`. */
  lemma {:induction false} ErrorDeterminesCode(a: Option<I32>, b: Option<I32>)
    requires !Response(a).success && !Response(b).success
    requires Response(a).error == Response(b).error
    ensures a == b
  {
    var p := "Command exited with code ";
    var da, db := DebugCode(a), DebugCode(b);
    assert (p + da)[|p|..] == da && (p + db)[|p|..] == db;
    assert da == db;
    if a.Some? && b.Some? {
      assert da[5..|da| - 1] == db[5..|db| - 1];
      IntToDecimalInjective(a.value, b.value);
    }
  }

  /** The command is neither blank nor refused because the session is busy. */
  predicate Admitted(m: ShellManager, command: string) {
    !IsBlank(command) && !ManagerIsBusy(m)
  }

  /** The directory `execute_command` runs in, when it gets that far. */
  function WorkingDir(m: ShellManager, cwd: Option<string>): (d: string)
    ensures cwd.Some? ==> d == cwd.value
    ensures cwd.None? ==> d == ManagerGetCwd(m)
  {
    match cwd
    case Some(p) => p
    case None => GetCwd(m.shellState)
  }

  // ---------------------------------------------------------------------------
  // The lock-separated steps inside execute_command
  // ---------------------------------------------------------------------------

  /** The claim after the busy check: `set_busy(true)`, then the echo line
      is pushed. */
  function Claim(m: ShellManager, command: string, now: U64): (r: ShellManager)
    ensures ManagerIsBusy(r)
    ensures r.shellState == SetBusy(m.shellState, true)
    ensures r.history == PushLines(m.history, [Command(command, now)])
  {
    m.(shellState := SetBusy(m.shellState, true), history := Push(m.history, Command(command, now), now))
  }

  /** After the spawn: the child's PID is stored and the two reader tasks
      drain the pipes into history while busy stays set. A `cancel_command` arriving while the
      command runs sees this state. */
  function Drained(claimed: ShellManager, id: Option<Pid>, lines: seq<OutputLine>): (r: ShellManager)
    ensures GetPid(r.shellState) == id
    ensures r.history == PushLines(claimed.history, lines)
    ensures r.shellState.(pid := claimed.shellState.pid) == claimed.shellState
  {
    claimed.(shellState := claimed.shellState.(pid := id), history := PushLines(claimed.history, lines))
  }

  /** `set_busy(false)` under the busy lock alone: after both readers are
      joined, on a wait failure, or on a missing directory or spawn failure
      before any PID is stored. */
  function ReleaseBusy(m: ShellManager): (r: ShellManager)
    ensures !ManagerIsBusy(r)
    ensures r.(shellState := r.shellState.(busy := m.shellState.busy)) == m
  {
    m.(shellState := SetBusy(m.shellState, false))
  }

  /** The statement after that `set_busy(false)`: the PID lock is taken again
      and the PID cleared. */
  function ClearPid(m: ShellManager): (r: ShellManager)
    ensures GetPid(r.shellState).None?
    ensures r.(shellState := r.shellState.(pid := m.shellState.pid)) == m
  {
    m.(shellState := m.shellState.(pid := None))
  }

  /** `execute_command` after admission: `claimed` is the session with busy
      set and the echo line pushed. An explicit directory must exist; then
      `sh -c <command>` is spawned in the working directory; its PID is
      stored, both pipes are drained into history, the exit is awaited, and
      busy and the PID are cleared whatever the outcome. */
  function Launch(claimed: ShellManager, echo: OutputLine, command: string, cwd: Option<string>, fs: Fs, run: Run): (x: Execution)
    requires ScheduleFits(run)
    ensures x.manager.shellState.cwd == claimed.shellState.cwd
    ensures x.manager.shellState.process == claimed.shellState.process
    ensures !ManagerIsBusy(x.manager)
    ensures x.spawned.None? <==> cwd.Some? && !fs.isDir(cwd.value)
    ensures x.spawned.None? ==>
              && x.result == Err("Directory does not exist: " + cwd.value)
              && x.emitted == [echo]
              && x.manager == claimed.(shellState := SetBusy(claimed.shellState, false))
    ensures x.spawned.Some? ==> x.spawned.value == SpawnRequest("sh", ["-c", command], WorkingDir(claimed, cwd))
    ensures x.spawned.Some? && run.spawn.SpawnFailed? ==>
              && x.result == Err("Failed to spawn process: " + run.spawn.reason)
              && x.emitted == [echo]
              && x.manager == claimed.(shellState := SetBusy(claimed.shellState, false))
    ensures x.spawned.Some? && run.spawn.Spawned? ==>
              && x.emitted == [echo] + Interleave(run.stdout, run.stderr, run.schedule)
              && x.manager.history == PushLines(claimed.history, x.emitted[1..])
              && GetPid(x.manager.shellState).None?
              && x.result == match run.wait
                 case WaitFailed(e) => Err("Failed to wait for process: " + e)
                 case Exited(code) => Ok(Response(code))
  {
    if cwd.Some? && !fs.isDir(cwd.value) then
      Execution(Err("Directory does not exist: " + cwd.value), ReleaseBusy(claimed), [echo], None)
    else
      var request := SpawnRequest("sh", ["-c", command], WorkingDir(claimed, cwd));
      match run.spawn
      case SpawnFailed(e) =>
        Execution(Err("Failed to spawn process: " + e), ReleaseBusy(claimed), [echo], Some(request))
      case Spawned(id) =>
        var lines := Interleave(run.stdout, run.stderr, run.schedule);
        var idle := ClearPid(ReleaseBusy(Drained(claimed, id, lines)));
        assert ([echo] + lines)[1..] == lines;
        match run.wait
        case WaitFailed(e) => Execution(Err("Failed to wait for process: " + e), idle, [echo] + lines, Some(request))
        case Exited(code) => Execution(Ok(Response(code)), idle, [echo] + lines, Some(request))
  }

  /** `execute_command`. A blank command, then a busy session, are refused with
      nothing changed. Admission is `is_busy` followed by `set_busy(true)` (not
      the test-and-set); the echo line is then pushed and emitted before the
      directory check and the spawn, so it stays in history whatever follows;
      the session always ends idle. */
  function Execute(m: ShellManager, command: string, cwd: Option<string>, fs: Fs, run: Run): (x: Execution)
    requires ScheduleFits(run)
    ensures IsBlank(command) ==> x == Execution(Err(EMPTY_COMMAND), m, [], None)
    ensures !IsBlank(command) && ManagerIsBusy(m) ==> x == Execution(Err(ALREADY_RUNNING), m, [], None)
    ensures Admitted(m, command) ==>
              && x.emitted != [] && x.emitted[0] == Command(command, run.now)
              && x.manager.history == PushLines(m.history, x.emitted)
              && !ManagerIsBusy(x.manager)
              && x.manager.shellState.cwd == m.shellState.cwd
              && x.manager.shellState.process == m.shellState.process
    ensures Admitted(m, command) ==> (x.spawned.None? <==> cwd.Some? && !fs.isDir(cwd.value))
    ensures Admitted(m, command) && cwd.Some? && !fs.isDir(cwd.value) ==>
              && x.result == Err("Directory does not exist: " + cwd.value)
              && x.emitted == [Command(command, run.now)]
              && x.spawned.None?
              && x.manager.shellState == m.shellState
    ensures x.spawned.Some? ==>
              && Admitted(m, command)
              && x.spawned.value == SpawnRequest("sh", ["-c", command], WorkingDir(m, cwd))
              && (cwd.Some? ==> fs.isDir(cwd.value))
    ensures x.spawned.Some? && run.spawn.SpawnFailed? ==>
              && x.result == Err("Failed to spawn process: " + run.spawn.reason)
              && x.emitted == [Command(command, run.now)]
              && x.manager.shellState == m.shellState
    ensures x.spawned.Some? && run.spawn.Spawned? ==>
              && x.emitted == [Command(command, run.now)] + Interleave(run.stdout, run.stderr, run.schedule)
              && GetPid(x.manager.shellState).None?
              && x.result == match run.wait
                 case WaitFailed(e) => Err("Failed to wait for process: " + e)
                 case Exited(code) => Ok(Response(code))
    ensures x.result.Ok? ==> x.spawned.Some? && run.spawn.Spawned? && run.wait.Exited?
  {
    if IsBlank(command) then
      Execution(Err(EMPTY_COMMAND), m, [], None)
    else if ManagerIsBusy(m) then
      Execution(Err(ALREADY_RUNNING), m, [], None)
    else
      var echo := Command(command, run.now);
      var claimed := Claim(m, command, run.now);
      var x := Launch(claimed, echo, command, cwd, fs, run);
      assert x.emitted == [echo] + x.emitted[1..];
      PushLinesAppend(m.history, [echo], x.emitted[1..]);
      x
  }

  /** `get_history`: the full snapshot, in insertion order. */
  function GetHistory(m: ShellManager): (r: Result<seq<OutputLine>, string>)
    ensures r.Ok? && |r.value| == Len(m.history)
    ensures r == Ok(m.history.lines)
  {
    Ok(GetAll(m.history))
  }

  /** `get_cwd` */
  function GetCwdCommand(m: ShellManager): (r: Result<string, string>)
    ensures r.Ok? && r.value == ManagerGetCwd(m)
  {
    Ok(ManagerGetCwd(m))
  }

  /** While the buffer has room, a completed run leaves the history as before,
      then the echo line, then the pipes' lines interleaved with each pipe's
      order kept (see `Interleave`). */
  lemma ExecuteHistoryWithRoom(m: ShellManager, command: string, cwd: Option<string>, fs: Fs, run: Run)
    requires ScheduleFits(run) && Admitted(m, command)
    requires cwd.Some? ==> fs.isDir(cwd.value)
    requires run.spawn.Spawned?
    requires Len(m.history) + 1 + |run.stdout| + |run.stderr| <= m.history.capacity
    ensures GetHistory(Execute(m, command, cwd, fs, run).manager)
              == Ok(GetAll(m.history) + [Command(command, run.now)] + Interleave(run.stdout, run.stderr, run.schedule))
  {
    ExecuteSpawnedHistory(m, command, cwd, fs, run);
    AppendWithRoom(m.history, Command(command, run.now), Interleave(run.stdout, run.stderr, run.schedule));
  }

  /** With room for the echo line and the output, pushing them only appends. */
  lemma AppendWithRoom(b: HistoryBuffer, echo: OutputLine, lines: seq<OutputLine>)
    requires |b.lines| + 1 + |lines| <= b.capacity
    ensures PushLines(b, [echo] + lines).lines == GetAll(b) + [echo] + lines
  {
    var pushed := [echo] + lines;
    FillWithoutEviction(b, pushed);
    SeqAssoc(GetAll(b), [echo], lines);
  }

  lemma SeqAssoc<T>(x: seq<T>, y: seq<T>, z: seq<T>)
    ensures x + (y + z) == x + y + z
  {
  }

  /** The history after a spawned run: the echo and the interleaved lines pushed. */
  lemma ExecuteSpawnedHistory(m: ShellManager, command: string, cwd: Option<string>, fs: Fs, run: Run)
    requires ScheduleFits(run) && Admitted(m, command)
    requires cwd.Some? ==> fs.isDir(cwd.value)
    requires run.spawn.Spawned?
    ensures Execute(m, command, cwd, fs, run).manager.history
              == PushLines(m.history, [Command(command, run.now)] + Interleave(run.stdout, run.stderr, run.schedule))
  {
    var x := Execute(m, command, cwd, fs, run);
    assert x.spawned.Some?;
  }

  /** The engine never leaves a session stuck busy: from idle, every call ends
      idle, so the next non-blank command is admitted. */
  lemma ExecuteReturnsToIdle(m: ShellManager, command: string, cwd: Option<string>, fs: Fs, run: Run, next: string)
    requires ScheduleFits(run) && !ManagerIsBusy(m) && !IsBlank(next)
    ensures Admitted(Execute(m, command, cwd, fs, run).manager, next)
  {
  }

  /** A command submitted while another runs is refused and leaves the running
      command's state and history alone. */
  lemma BusyRejectsWithoutEffect(m: ShellManager, command: string, cwd: Option<string>, fs: Fs, run: Run)
    requires ScheduleFits(run) && ManagerIsBusy(m) && !IsBlank(command)
    ensures Execute(m, command, cwd, fs, run).result == Err(ALREADY_RUNNING)
    ensures Execute(m, command, cwd, fs, run).manager == m
  {
  }

  /** A response built from an exit code agrees with `CommandResponse::success`
      on `success` and `exit_code`; only a nonzero code makes them differ, in
      the error message. */
  lemma ResponseMatchesSuccessConstructor(c: I32)
    ensures Response(Some(c)).success == Success(c).success
    ensures Response(Some(c)).exitCode == Success(c).exitCode
    ensures Response(Some(c)) == Success(c) <==> c == 0
  {
  }

  /** `echo hello world` that prints one line and exits 0: a successful response
      with code 0 and a `Stdout` line "hello world" in history. */
  lemma EchoHelloWorld(cwdPath: string, fs: Fs, now: U64, at: U64, pid: Pid)
    ensures var m := WithCapacityAndCwd(DEFAULT_CAPACITY, cwdPath);
            var run := Run(now, Spawned(Some(pid)), [Stamped("hello world", at)], [], [FromStdout], Exited(Some(0)));
            var x := Execute(m, "echo hello world", None, fs, run);
            && x.result == Ok(CommandResponse(true, Some(0), None))
            && GetAll(x.manager.history) == [Command("echo hello world", now), Stdout("hello world", at)]
  {
    var m := WithCapacityAndCwd(DEFAULT_CAPACITY, cwdPath);
    assert !IsWhitespace("echo hello world"[0]);
    var run := Run(now, Spawned(Some(pid)), [Stamped("hello world", at)], [], [FromStdout], Exited(Some(0)));
    ExecuteHistoryWithRoom(m, "echo hello world", None, fs, run);
  }

  /** `exit 1`: a failed response with code 1 and an error naming it. */
  lemma ExitOne(m: ShellManager, fs: Fs, now: U64)
    requires !ManagerIsBusy(m)
    ensures var run := Run(now, Spawned(None), [], [], [], Exited(Some(1)));
            Execute(m, "exit 1", None, fs, run).result
              == Ok(CommandResponse(false, Some(1), Some("Command exited with code Some(1)")))
  {
    assert !IsBlank("exit 1") by {
      assert !IsWhitespace("exit 1"[0]);
    }
    var run := Run(now, Spawned(None), [], [], [], Exited(Some(1)));
    var x := Execute(m, "exit 1", None, fs, run);
    assert x.spawned.Some?;
    assert x.result == Ok(Response(Some(1)));
    ExitOneMessage();
  }

  lemma ExitOneMessage()
    ensures Response(Some(1)) == CommandResponse(false, Some(1), Some("Command exited with code Some(1)"))
  {
    assert NatToDecimal(1) == "1";
    assert DebugCode(Some(1)) == "Some(" + "1" + ")";
    assert "Command exited with code " + ("Some(" + "1" + ")") == "Command exited with code Some(1)";
  }

  // ---------------------------------------------------------------------------
  // cancel_command
  // ---------------------------------------------------------------------------

  /** `pid as i32`: a PID above `i32::MAX` wraps to a negative number. */
  function AsI32(p: Pid): (r: I32)
    ensures 0 <= p < 0x8000_0000 ==> r == p
    ensures p >= 0x8000_0000 ==> r < 0 && r + 0x1_0000_0000 == p
  {
    if p < 0x8000_0000 then p else p - 0x1_0000_0000
  }

  /** The result of `cancel_command` and the raw PID SIGINT was sent to, if any. */
  datatype Cancellation = Cancellation(result: Result<(), string>, signalled: Option<I32>)

  /** `cancel_command`: reads the stored PID with `get_pid` (not
      `get_pid_if_busy`); with one, sends SIGINT (its outcome is the oracle
      `signal`), otherwise reports that nothing is running. The session is
      not changed. */
  function Cancel(m: ShellManager, signal: Result<(), string>): (c: Cancellation)
    ensures GetPid(m.shellState).None? ==> c == Cancellation(Err(NOTHING_RUNNING), None)
    ensures GetPid(m.shellState).Some? ==> c.signalled == Some(AsI32(GetPid(m.shellState).value))
    ensures GetPid(m.shellState).Some? ==>
              c.result == match signal
                case Ok(_) => Ok(())
                case Err(e) => Err("Failed to send SIGINT: " + e)
  {
    match GetPid(m.shellState)
    case None => Cancellation(Err(NOTHING_RUNNING), None)
    case Some(pid) =>
      Cancellation(match signal case Ok(_) => Ok(()) case Err(e) => Err("Failed to send SIGINT: " + e),
                   Some(AsI32(pid)))
  }

  /** A stored PID only while busy. */
  predicate PidOnlyWhenBusy(m: ShellManager) {
    GetPid(m.shellState).Some? ==> ManagerIsBusy(m)
  }

  /** Between whole `execute_command` calls the PID-only-while-busy invariant
      holds, so there `get_pid` and `get_running_pid` agree. Inside a call it
      does not: see `CleanupWindow`. */
  lemma ExecuteKeepsPidOnlyWhenBusy(m: ShellManager, command: string, cwd: Option<string>, fs: Fs, run: Run)
    requires ScheduleFits(run) && PidOnlyWhenBusy(m)
    ensures PidOnlyWhenBusy(Execute(m, command, cwd, fs, run).manager)
  {
  }

  lemma CancelTargetsRunningPid(m: ShellManager, signal: Result<(), string>)
    requires PidOnlyWhenBusy(m)
    ensures Cancel(m, signal).signalled.Some? <==> GetRunningPid(m).Some?
  {
  }

  /** The states a concurrent `cancel_command` can observe during one spawned
      run. While the command runs (busy, PID stored) cancel signals the child.
      After both readers are joined, `set_busy(false)` and clearing the PID
      are separate lock acquisitions, and the state between them is
      idle with the PID still stored: the invariant is broken there, nothing
      is reported running, yet cancel signals the PID that `wait` has already
      reaped. Clearing the PID then gives the manager `execute_command` ends
      with. */
  lemma CleanupWindow(m: ShellManager, command: string, cwd: Option<string>, fs: Fs, run: Run,
                      signal: Result<(), string>)
    requires ScheduleFits(run) && Admitted(m, command)
    requires cwd.Some? ==> fs.isDir(cwd.value)
    requires run.spawn.Spawned? && run.spawn.id.Some?
    ensures var running := Drained(Claim(m, command, run.now), run.spawn.id,
                                   Interleave(run.stdout, run.stderr, run.schedule));
            var between := ReleaseBusy(running);
            && GetRunningPid(running) == run.spawn.id
            && Cancel(running, signal).signalled == Some(AsI32(run.spawn.id.value))
            && !PidOnlyWhenBusy(between)
            && GetRunningPid(between).None?
            && Cancel(between, signal).signalled == Some(AsI32(run.spawn.id.value))
            && ClearPid(between) == Execute(m, command, cwd, fs, run).manager
  {
  }

  /** Outside that invariant the two lookups differ: with a stale PID and an
      idle session, cancel still signals it although no command is running. */
  lemma CancelSignalsStalePid(cwd: string, pid: Pid)
    requires pid < 0x8000_0000
    ensures var m := ShellManager(Session.New(cwd).(pid := Some(pid)), History.New(DEFAULT_CAPACITY));
            && GetRunningPid(m).None?
            && Cancel(m, Ok(())) == Cancellation(Ok(()), Some(pid))
  {
  }

  // ---------------------------------------------------------------------------
  // change_directory
  // ---------------------------------------------------------------------------

  /** `Path::is_relative` on Unix: no leading `/`. */
  predicate IsRelative(path: string) {
    !IsPrefix("/", path)
  }

  /** `Path::join(base, rel)` for a relative `rel`: a `/` is added unless
      `base` is empty or already ends with one. */
  function JoinPath(base: string, rel: string): (r: string)
    ensures IsPrefix(base, r) && IsSuffix(rel, r)
    ensures |r| == |base| + |rel| || |r| == |base| + |rel| + 1
  {
    if base == [] || base[|base| - 1] == '/' then base + rel else base + "/" + rel
  }

  /** The path `change_directory` canonicalises: relative paths are resolved
      against the session's directory. */
  function Target(m: ShellManager, path: string): (t: string)
    ensures !IsRelative(path) ==> t == path
    ensures IsRelative(path) ==> IsPrefix(ManagerGetCwd(m), t) && IsSuffix(path, t)
    ensures IsRelative(path) ==> |t| <= |ManagerGetCwd(m)| + |path| + 1
  {
    if IsRelative(path) then JoinPath(ManagerGetCwd(m), path) else path
  }

  /** The result of `change_directory`, the manager afterwards, and the
      "shell-notification" event emitted (it is not pushed to history). */
  datatype DirChange = DirChange(result: Result<string, string>, manager: ShellManager, notified: Option<OutputLine>)

  /** `change_directory`. Succeeds exactly when the target canonicalises to a
      directory; then the session's directory becomes that canonical path.
      Failures change nothing. The history is never touched. */
  function ChangeDirectory(m: ShellManager, path: string, fs: Fs, now: U64): (d: DirChange)
    ensures d.manager.history == m.history
    ensures d.result.Ok? <==> fs.canonicalize(Target(m, path)).Ok? && fs.isDir(fs.canonicalize(Target(m, path)).value)
    ensures d.result.Ok? ==>
              && d.result.value == fs.canonicalize(Target(m, path)).value
              && d.manager.shellState == SetCwd(m.shellState, d.result.value)
              && d.notified == Some(Notification("Changed directory to: " + d.result.value, Info, now))
    ensures d.result.Err? ==> d.manager == m && d.notified.None?
    ensures fs.canonicalize(Target(m, path)).Err? ==>
              d.result == Err("Invalid path: " + fs.canonicalize(Target(m, path)).error)
  {
    match fs.canonicalize(Target(m, path))
    case Err(e) => DirChange(Err("Invalid path: " + e), m, None)
    case Ok(abs) =>
      if !fs.isDir(abs) then
        DirChange(Err("Not a directory: " + abs), m, None)
      else
        DirChange(Ok(abs), m.(shellState := SetCwd(m.shellState, abs)),
                  Some(Notification("Changed directory to: " + abs, Info, now)))
  }

  /** After a successful change, `get_cwd` reports the canonical path; after a
      failed one it reports the old directory. */
  lemma ChangeDirectoryThenGetCwd(m: ShellManager, path: string, fs: Fs, now: U64)
    ensures var d := ChangeDirectory(m, path, fs, now);
            GetCwdCommand(d.manager) == (if d.result.Ok? then Ok(d.result.value) else GetCwdCommand(m))
  {
  }
}

=== FILE: history.dfy ===
/** The backend's bounded scrollback (`HistoryBuffer`): a sequence of lines,
    a capacity, and a one-shot latch recording that the truncation warning
    has been inserted. Each operation is one atomic step; the locks and the
    `Arc` sharing of clones are not modelled. */
module History {
  import opened Wrappers
  import opened Strings
  import opened Output

  /** `HistoryBuffer::DEFAULT_CAPACITY` */
  const DEFAULT_CAPACITY: nat := 10000

  /** The warning text; it names 10,000 whatever the buffer's capacity is. */
  const TRUNCATION_MESSAGE: string := "Output truncated: line limit (10,000) exceeded"

  datatype HistoryBuffer = HistoryBuffer(lines: seq<OutputLine>, capacity: nat, warningShown: bool)

  /** The notification `push` inserts the first time it evicts. */
  function TruncationWarning(now: U64): OutputLine {
    Notification(TRUNCATION_MESSAGE, Warning, now)
  }

  /** `VecDeque::pop_front`, discarding the removed line (a no-op when empty). */
  function PopFront(lines: seq<OutputLine>): (r: seq<OutputLine>)
    ensures lines != [] ==> [lines[0]] + r == lines
    ensures lines == [] ==> r == []
  {
    if lines == [] then [] else lines[1..]
  }

  /** `HistoryBuffer::new`: empty, latch clear. */
  function New(capacity: nat): (b: HistoryBuffer)
    ensures b.lines == [] && b.capacity == capacity && !b.warningShown
    ensures Bounded(b)
  {
    HistoryBuffer([], capacity, false)
  }

  /** `HistoryBuffer::push`, as written: when the buffer holds `capacity` lines
      or more it drops the front line, and the first time this happens it also
      appends the truncation warning (stamped `now`) before the new line. */
  function Push(b: HistoryBuffer, line: OutputLine, now: U64): (r: HistoryBuffer)
    ensures r.capacity == b.capacity
    ensures r.lines != [] && r.lines[|r.lines| - 1] == line
    ensures r.warningShown <==> b.warningShown || |b.lines| >= b.capacity
    ensures |b.lines| < b.capacity ==> r.lines[..|r.lines| - 1] == b.lines
    ensures |b.lines| >= b.capacity && b.warningShown ==>
              r.lines[..|r.lines| - 1] == PopFront(b.lines)
    ensures |b.lines| >= b.capacity && !b.warningShown ==>
              r.lines[..|r.lines| - 1] == PopFront(b.lines) + [TruncationWarning(now)]
  {
    if |b.lines| >= b.capacity then
      var kept := PopFront(b.lines);
      if b.warningShown then
        b.(lines := kept + [line])
      else
        b.(lines := kept + [TruncationWarning(now), line], warningShown := true)
    else
      b.(lines := b.lines + [line])
  }

  /** Pushes `ls` in order; each line's own timestamp stands for the clock
      reading taken for a warning inserted by that push. */
  function PushLines(b: HistoryBuffer, ls: seq<OutputLine>): (r: HistoryBuffer)
    ensures r.capacity == b.capacity
    decreases |ls|
  {
    if ls == [] then b else PushLines(Push(b, ls[0], Timestamp(ls[0])), ls[1..])
  }

  /** `get_all`: the lines in insertion order. */
  function GetAll(b: HistoryBuffer): (r: seq<OutputLine>)
    ensures |r| == Len(b)
    ensures r == b.lines
  {
    b.lines
  }

  function Len(b: HistoryBuffer): nat {
    |b.lines|
  }

  function IsEmpty(b: HistoryBuffer): (r: bool)
    ensures r <==> Len(b) == 0
  {
    b.lines == []
  }

  function HasTruncationWarning(b: HistoryBuffer): bool {
    b.warningShown
  }

  /** `clear`: no lines, latch reset, same capacity. */
  function Clear(b: HistoryBuffer): (r: HistoryBuffer)
    ensures r == New(b.capacity)
    ensures IsEmpty(r) && !HasTruncationWarning(r)
  {
    b.(lines := [], warningShown := false)
  }

  /** `first`: the oldest line, if any. */
  function First(b: HistoryBuffer): (r: Option<OutputLine>)
    ensures r.None? <==> IsEmpty(b)
    ensures r.Some? ==> r.value == GetAll(b)[0]
  {
    if b.lines == [] then None else Some(b.lines[0])
  }

  /** Some notification among `lines` has a message containing `sub`. */
  function AnyNotificationContains(lines: seq<OutputLine>, sub: string): (r: bool)
    ensures r <==> exists i :: 0 <= i < |lines| && lines[i].Notification? && Contains(lines[i].message, sub)
  {
    if lines == [] then false
    else
      var r := (lines[0].Notification? && Contains(lines[0].message, sub))
               || AnyNotificationContains(lines[1..], sub);
      assert forall i :: 0 < i < |lines| ==> lines[i] == lines[1..][i - 1];
      r
  }

  /** `contains_warning`: some notification line's message contains `sub`. */
  function ContainsWarning(b: HistoryBuffer, sub: string): (r: bool)
    ensures r <==> exists i :: 0 <= i < |b.lines| && b.lines[i].Notification? && Contains(b.lines[i].message, sub)
  {
    AnyNotificationContains(b.lines, sub)
  }

  // ---------------------------------------------------------------------------
  // The capacity bound as written
  // ---------------------------------------------------------------------------

  /** The invariant `push` keeps: at most `capacity` lines until the warning
      has been inserted, at most `capacity + 1` afterwards. */
  predicate Bounded(b: HistoryBuffer) {
    |b.lines| <= b.capacity + (if b.warningShown then 1 else 0)
  }

  lemma PushKeepsBounded(b: HistoryBuffer, line: OutputLine, now: U64)
    requires b.capacity >= 1 && Bounded(b)
    ensures Bounded(Push(b, line, now))
    ensures |Push(b, line, now).lines| <= b.capacity + 1
  {
  }

  /** For capacity at least one, no sequence of pushes takes a bounded buffer
      past `capacity + 1` lines. */
  lemma {:induction false} PushLinesBounded(b: HistoryBuffer, ls: seq<OutputLine>)
    requires b.capacity >= 1 && Bounded(b)
    ensures Bounded(PushLines(b, ls))
    ensures |PushLines(b, ls).lines| <= b.capacity + 1
    decreases |ls|
  {
    if ls != [] {
      PushKeepsBounded(b, ls[0], Timestamp(ls[0]));
      PushLinesBounded(Push(b, ls[0], Timestamp(ls[0])), ls[1..]);
    }
  }

  /** `capacity + 1` is reached: four lines pushed into a capacity-3 buffer
      leave four lines (two survivors, the warning, the newest line). */
  lemma OverflowReached()
    ensures var ls := [Stdout("line0", 0), Stdout("line1", 1), Stdout("line2", 2), Stdout("line3", 3)];
            var r := PushLines(New(3), ls);
            && |r.lines| == 4 > r.capacity
            && r.lines == [ls[1], ls[2], TruncationWarning(3), ls[3]]
  {
  }

  /** With capacity 0 even `capacity + 1` fails: one push yields two lines. */
  lemma ZeroCapacityExceedsBound(line: OutputLine, now: U64)
    ensures |Push(New(0), line, now).lines| == 2
  {
  }

  /** Pushing `xs` then `ys` is pushing `xs + ys`. */
  lemma {:induction false} PushLinesAppend(b: HistoryBuffer, xs: seq<OutputLine>, ys: seq<OutputLine>)
    ensures PushLines(PushLines(b, xs), ys) == PushLines(b, xs + ys)
    decreases |xs|
  {
    if xs != [] {
      assert (xs + ys)[0] == xs[0];
      assert (xs + ys)[1..] == xs[1..] + ys;
      PushLinesAppend(Push(b, xs[0], Timestamp(xs[0])), xs[1..], ys);
    } else {
      assert xs + ys == ys;
    }
  }

  // ---------------------------------------------------------------------------
  // Filling, the latch, and the first eviction
  // ---------------------------------------------------------------------------

  /** While there is room, pushes only append, in order, and leave the latch alone. */
  lemma {:induction false} FillWithoutEviction(b: HistoryBuffer, ls: seq<OutputLine>)
    requires |b.lines| + |ls| <= b.capacity
    ensures PushLines(b, ls).lines == b.lines + ls
    ensures PushLines(b, ls).warningShown == b.warningShown
    decreases |ls|
  {
    if ls != [] {
      var b' := Push(b, ls[0], Timestamp(ls[0]));
      assert b'.lines == b.lines + [ls[0]];
      FillWithoutEviction(b', ls[1..]);
      assert b.lines + [ls[0]] + ls[1..] == b.lines + ls;
    }
  }

  /** Pushing exactly `capacity` lines into a new buffer keeps all of them in
      order with the latch clear; the next push evicts the oldest, inserts the
      warning just before the new line, and sets the latch. */
  lemma FirstEviction(capacity: nat, ls: seq<OutputLine>, extra: OutputLine, now: U64)
    requires capacity >= 1 && |ls| == capacity
    ensures PushLines(New(capacity), ls) == HistoryBuffer(ls, capacity, false)
    ensures var r := Push(PushLines(New(capacity), ls), extra, now);
            && r.warningShown
            && r.lines == ls[1..] + [TruncationWarning(now), extra]
            && |r.lines| == capacity + 1
            && ContainsWarning(r, "truncated")
  {
    FillWithoutEviction(New(capacity), ls);
    assert New(capacity).lines + ls == ls;
    var r := Push(HistoryBuffer(ls, capacity, false), extra, now);
    assert r.lines == ls[1..] + [TruncationWarning(now), extra] by {
      assert r.lines == r.lines[..|r.lines| - 1] + [extra];
    }
    assert r.lines[|ls| - 1] == TruncationWarning(now);
    WarningFound(r, now);
  }

  /** A buffer holding the warning line answers `contains_warning("truncated")`. */
  lemma WarningFound(b: HistoryBuffer, now: U64)
    requires TruncationWarning(now) in b.lines
    ensures ContainsWarning(b, "truncated")
  {
    var i :| 0 <= i < |b.lines| && b.lines[i] == TruncationWarning(now);
    WarningMentionsTruncation(now);
  }

  lemma WarningMentionsTruncation(now: U64)
    ensures TruncationWarning(now).Notification?
    ensures OccursAt(TruncationWarning(now).message, "truncated", 7)
  {
    assert |TRUNCATION_MESSAGE| == 46;
    forall i | 0 <= i < 9 ensures TRUNCATION_MESSAGE[7 + i] == "truncated"[i] {
    }
    assert TRUNCATION_MESSAGE[7..16] == "truncated";
  }

  /** Once the warning is in and the buffer holds `capacity + 1` lines, every
      later push evicts one line and adds one: the length stays `capacity + 1`. */
  lemma {:induction false} SaturatedStaysFull(b: HistoryBuffer, ls: seq<OutputLine>)
    requires b.warningShown && |b.lines| == b.capacity + 1
    ensures PushLines(b, ls).warningShown
    ensures |PushLines(b, ls).lines| == b.capacity + 1
    decreases |ls|
  {
    if ls != [] {
      SaturatedStaysFull(Push(b, ls[0], Timestamp(ls[0])), ls[1..]);
    }
  }

  /** From a new buffer of capacity at least one, pushing more than `capacity`
      lines always ends with exactly `capacity + 1` lines, never `capacity`. */
  lemma OverfullFromNew(capacity: nat, ls: seq<OutputLine>)
    requires 1 <= capacity < |ls|
    ensures PushLines(New(capacity), ls).warningShown
    ensures |PushLines(New(capacity), ls).lines| == capacity + 1
  {
    var first := ls[..capacity];
    var rest := ls[capacity..];
    var full := PushLines(New(capacity), first);
    FirstEviction(capacity, first, rest[0], Timestamp(rest[0]));
    var b := Push(full, rest[0], Timestamp(rest[0]));
    assert b.warningShown && |b.lines| == capacity + 1;
    assert PushLines(full, rest) == PushLines(b, rest[1..]);
    SaturatedStaysFull(b, rest[1..]);
    PushLinesAppend(New(capacity), first, rest);
    assert first + rest == ls;
  }

  /** Once set, the latch stays set under any pushes (only `Clear` resets it). */
  lemma {:induction false} LatchMonotone(b: HistoryBuffer, ls: seq<OutputLine>)
    requires b.warningShown
    ensures PushLines(b, ls).warningShown
    decreases |ls|
  {
    if ls != [] {
      LatchMonotone(Push(b, ls[0], Timestamp(ls[0])), ls[1..]);
    }
  }

  // ---------------------------------------------------------------------------
  // Which lines survive
  // ---------------------------------------------------------------------------

  /** No line of `ls` is a notification (true of everything the engine pushes). */
  predicate NoNotifications(ls: seq<OutputLine>) {
    forall i :: 0 <= i < |ls| ==> !ls[i].Notification?
  }

  /** The non-notification lines of `ls`, in order. */
  function Plain(ls: seq<OutputLine>): (r: seq<OutputLine>)
    ensures |r| <= |ls|
  {
    if ls == [] then [] else (if ls[0].Notification? then [] else [ls[0]]) + Plain(ls[1..])
  }

  /** Number of notification lines in `ls`. */
  function NotificationCount(ls: seq<OutputLine>): nat {
    if ls == [] then 0 else (if ls[0].Notification? then 1 else 0) + NotificationCount(ls[1..])
  }

  lemma {:induction false} PlainAppend(xs: seq<OutputLine>, ys: seq<OutputLine>)
    ensures Plain(xs + ys) == Plain(xs) + Plain(ys)
    ensures NotificationCount(xs + ys) == NotificationCount(xs) + NotificationCount(ys)
    decreases |xs|
  {
    if xs != [] {
      assert (xs + ys)[1..] == xs[1..] + ys;
      PlainAppend(xs[1..], ys);
    } else {
      assert xs + ys == ys;
    }
  }

  lemma SuffixAppend<T>(a: seq<T>, b: seq<T>, z: seq<T>)
    requires IsSuffix(a, b)
    ensures IsSuffix(a + z, b + z)
  {
    assert (b + z)[|b + z| - |a + z|..] == b[|b| - |a|..] + z;
  }

  lemma SuffixTransitive<T>(a: seq<T>, b: seq<T>, c: seq<T>)
    requires IsSuffix(a, b) && IsSuffix(b, c)
    ensures IsSuffix(a, c)
  {
    assert c[|c| - |b|..][|b| - |a|..] == c[|c| - |a|..];
  }

  /** Dropping the front line keeps a suffix of the plain lines and never
      adds a notification. */
  lemma PopFrontPlain(lines: seq<OutputLine>)
    ensures IsSuffix(Plain(PopFront(lines)), Plain(lines))
    ensures NotificationCount(PopFront(lines)) <= NotificationCount(lines)
  {
    if lines != [] {
      PlainAppend([lines[0]], PopFront(lines));
    }
  }

  /** One push of a non-notification line: the surviving plain lines are a
      suffix of the previous plain lines followed by the new line, and the
      notification count grows only by the warning a clear latch lets in. */
  lemma PushPlainStep(b: HistoryBuffer, l: OutputLine, now: U64)
    requires !l.Notification?
    ensures IsSuffix(Plain(Push(b, l, now).lines), Plain(b.lines) + [l])
    ensures NotificationCount(Push(b, l, now).lines) + (if b.warningShown then 1 else 0)
            <= NotificationCount(b.lines) + (if Push(b, l, now).warningShown then 1 else 0)
  {
    var r := Push(b, l, now);
    var front := r.lines[..|r.lines| - 1];
    assert r.lines == front + [l];
    PlainAppend(front, [l]);
    assert Plain([l]) == [l] && NotificationCount([l]) == 0;
    if |b.lines| < b.capacity {
      assert front == b.lines;
    } else {
      var kept := PopFront(b.lines);
      PopFrontPlain(b.lines);
      if !b.warningShown {
        var w := TruncationWarning(now);
        assert front == kept + [w];
        PlainAppend(kept, [w]);
        assert Plain([w]) == [] && NotificationCount([w]) == 1;
        assert Plain(front) == Plain(kept);
      } else {
        assert front == kept;
      }
      SuffixAppend(Plain(kept), Plain(b.lines), [l]);
    }
  }

  /** The surviving non-notification lines are a contiguous suffix of the
      previous ones followed by everything pushed, in push order; and, when
      nothing but non-notification lines is pushed, the buffer holds at most
      one notification more than before if the latch was clear, none more if
      it was set. */
  lemma {:induction false} PushLinesSurvivors(b: HistoryBuffer, ls: seq<OutputLine>)
    requires NoNotifications(ls)
    ensures IsSuffix(Plain(PushLines(b, ls).lines), Plain(b.lines) + ls)
    ensures NotificationCount(b.lines) <= (if b.warningShown then 1 else 0) ==>
              NotificationCount(PushLines(b, ls).lines) <= (if PushLines(b, ls).warningShown then 1 else 0)
    decreases |ls|
  {
    if ls == [] {
      assert Plain(b.lines) + ls == Plain(b.lines);
    } else {
      var b' := Push(b, ls[0], Timestamp(ls[0]));
      PushPlainStep(b, ls[0], Timestamp(ls[0]));
      PushLinesSurvivors(b', ls[1..]);
      SuffixAppend(Plain(b'.lines), Plain(b.lines) + [ls[0]], ls[1..]);
      assert Plain(b.lines) + [ls[0]] + ls[1..] == Plain(b.lines) + ls;
      SuffixTransitive(Plain(PushLines(b', ls[1..]).lines), Plain(b'.lines) + ls[1..], Plain(b.lines) + ls);
    }
  }

  /** From a new buffer: the kept non-notification lines are exactly the last
      few lines pushed, in push order, and at most one notification (the
      truncation warning) is present. */
  lemma RetainedSuffixFromNew(capacity: nat, ls: seq<OutputLine>)
    requires NoNotifications(ls)
    ensures IsSuffix(Plain(PushLines(New(capacity), ls).lines), ls)
    ensures NotificationCount(PushLines(New(capacity), ls).lines) <= 1
  {
    PushLinesSurvivors(New(capacity), ls);
    assert Plain(New(capacity).lines) + ls == ls;
  }
}

=== FILE: line_view.dfy ===
/** The frontend's view of a history line (`src/models/output_line.rs`): the
    CSS class per variant and the key the list renderer uses to tell lines
    apart. The frontend's `OutputLine` mirrors the backend's, so its
    `timestamp()` and `text()` are `Output.Timestamp` and `Output.Text`. */
module LineView {
  import opened Strings
  import opened Output

  /** `OutputLine::css_class` */
  function CssClass(l: OutputLine): (c: string)
    ensures l.Command? ==> c == "line-command"
    ensures l.Stdout? ==> c == "line-stdout"
    ensures l.Stderr? ==> c == "line-stderr"
    ensures l.Notification? ==> c == "line-notification"
  {
    match l
    case Command(_, _) => "line-command"
    case Stdout(_, _) => "line-stdout"
    case Stderr(_, _) => "line-stderr"
    case Notification(_, _, _) => "line-notification"
  }

  /** The kind of a line: its variant, and for a notification its level. */
  datatype Kind = CommandKind | StdoutKind | StderrKind | NotificationKind(level: NotificationLevel)

  function KindOf(l: OutputLine): Kind {
    match l
    case Command(_, _) => CommandKind
    case Stdout(_, _) => StdoutKind
    case Stderr(_, _) => StderrKind
    case Notification(_, level, _) => NotificationKind(level)
  }

  /** Two kinds are the same variant, whatever the notification level. */
  predicate SameVariant(a: Kind, b: Kind) {
    if a.NotificationKind? then b.NotificationKind? else a == b
  }

  /** The first component of `unique_key`. */
  function KeyPrefix(l: OutputLine): (p: string)
    ensures |p| >= 3
  {
    match l
    case Command(_, _) => "cmd"
    case Stdout(_, _) => "out"
    case Stderr(_, _) => "err"
    case Notification(_, Info, _) => "not_info"
    case Notification(_, Warning, _) => "not_warn"
    case Notification(_, Error, _) => "not_err"
  }

  /** Lines get the same CSS class exactly when they are the same variant, and
      the same key prefix exactly when they are also the same notification level. */
  lemma ClassAndPrefixIdentifyKind(a: OutputLine, b: OutputLine)
    ensures CssClass(a) == CssClass(b) <==> SameVariant(KindOf(a), KindOf(b))
    ensures KeyPrefix(a) == KeyPrefix(b) <==> KindOf(a) == KindOf(b)
  {
    if CssClass(a) == CssClass(b) {
      assert CssClass(a)[5..8] == CssClass(b)[5..8];
    }
    if KeyPrefix(a) == KeyPrefix(b) && |KeyPrefix(a)| > 3 {
      assert KeyPrefix(a)[4..6] == KeyPrefix(b)[4..6];
    }
  }

  /** The opaque hash of (prefix, timestamp, payload); `DefaultHasher` is not
      modelled, so the key takes it as a parameter. */
  type Digest = (string, U64, string) -> U64

  /** `OutputLine::unique_key`: `prefix_tttttttttttttttt_dddddddddddddddd`, the
      timestamp and the digest as 16 lowercase hex digits each. */
  function UniqueKey(l: OutputLine, digest: Digest): (k: string)
    ensures |k| == |KeyPrefix(l)| + 34
    ensures IsPrefix(KeyPrefix(l) + "_", k)
    ensures k[|k| - 34] == '_' && k[|k| - 17] == '_'
    ensures k[|k| - 33..|k| - 17] == Hex(Timestamp(l), 16)
    ensures k[|k| - 16..] == Hex(digest(KeyPrefix(l), Timestamp(l), Text(l)), 16)
    ensures forall i :: |k| - 33 <= i < |k| && i != |k| - 17 ==> IsLowerHexDigit(k[i])
  {
    var ts := Timestamp(l);
    KeyPrefix(l) + "_" + Hex(ts, 16) + "_" + Hex(digest(KeyPrefix(l), ts, Text(l)), 16)
  }

  /** The prefix part of a key (everything before the last 34 characters). */
  function PrefixOfKey(k: string): string
    requires |k| >= 34
  {
    k[..|k| - 34]
  }

  /** The timestamp part of a key, read back from hex. */
  function TimestampOfKey(k: string): nat
    requires |k| >= 34
  {
    ParseHex(k[|k| - 33..|k| - 17])
  }

  /** A key determines the line's prefix and timestamp. */
  lemma UniqueKeyDecodes(l: OutputLine, digest: Digest)
    ensures PrefixOfKey(UniqueKey(l, digest)) == KeyPrefix(l)
    ensures TimestampOfKey(UniqueKey(l, digest)) == Timestamp(l)
  {
    var ts := Timestamp(l);
    var k := UniqueKey(l, digest);
    var p := KeyPrefix(l);
    assert k[|k| - 33..|k| - 17] == Hex(ts, 16);
    Pow16Is2To64();
    HexRoundTrip(ts, 16);
  }

  /** Lines that differ in key prefix or in timestamp get different keys,
      whatever the digest. */
  lemma DistinctKeys(a: OutputLine, b: OutputLine, digest: Digest)
    requires KeyPrefix(a) != KeyPrefix(b) || Timestamp(a) != Timestamp(b)
    ensures UniqueKey(a, digest) != UniqueKey(b, digest)
  {
    UniqueKeyDecodes(a, digest);
    UniqueKeyDecodes(b, digest);
  }
}

=== FILE: log_retention.dfy ===
/** The selection part of log retention (`cleanup_old_logs`): which files of
    the log directory are deleted. Reading the directory, file metadata and
    the deletions themselves are I/O; the directory listing is an input. */
module LogRetention {
  import opened Wrappers
  import opened Strings

  /** `MAX_LOG_FILES`: about two weeks of daily logs. */
  const MAX_LOG_FILES: nat := 14

  /** A directory entry: its path, file name, whether its type was read and is
      a regular file, and its modification time if the metadata could be read. */
  datatype Entry = Entry(path: string, name: string, isFile: bool, modified: Option<nat>)

  /** A rotated log: a regular file whose name contains "terminal.log". */
  predicate IsLog(e: Entry) {
    e.isFile && Contains(e.name, "terminal.log")
  }

  /** The logs among `entries`, in listing order. */
  function Logs(entries: seq<Entry>): (r: seq<Entry>)
    ensures forall i :: 0 <= i < |r| ==> IsLog(r[i])
    ensures forall e :: e in r <==> e in entries && IsLog(e)
    ensures multiset(r) <= multiset(entries)
  {
    if entries == [] then []
    else
      var rest := Logs(entries[1..]);
      assert entries == [entries[0]] + entries[1..];
      if IsLog(entries[0]) then [entries[0]] + rest else rest
  }

  datatype Ordering = Less | Equal | Greater

  /** The sort comparator: newer modification time first, entries without a
      time after all entries with one, entries without a time equal. */
  function Compare(a: Entry, b: Entry): Ordering {
    match (a.modified, b.modified)
    case (Some(x), Some(y)) => if y < x then Less else if y == x then Equal else Greater
    case (Some(_), None) => Less
    case (None, Some(_)) => Greater
    case (None, None) => Equal
  }

  /** `a` may come before `b` in the sorted list. */
  predicate NoLater(a: Entry, b: Entry) {
    Compare(a, b) != Greater
  }

  /** The comparator is a total preorder, as `sort_by` requires. */
  lemma CompareIsTotalPreorder(a: Entry, b: Entry, c: Entry)
    ensures NoLater(a, b) || NoLater(b, a)
    ensures NoLater(a, b) && NoLater(b, c) ==> NoLater(a, c)
    ensures Compare(a, b) == Less <==> Compare(b, a) == Greater
  {
  }

  ghost predicate Sorted(s: seq<Entry>) {
    forall i, j :: 0 <= i < j < |s| ==> NoLater(s[i], s[j])
  }

  /** Inserts `x` after every entry that does not sort strictly after it, so
      entries that compare equal keep their order. */
  function Insert(x: Entry, s: seq<Entry>): (r: seq<Entry>)
    ensures multiset(r) == multiset(s) + multiset{x}
    ensures Sorted(s) ==> Sorted(r)
  {
    if s == [] then [x]
    else if Compare(x, s[0]) == Less then
      BeforeHeadSorted(x, s);
      assert s == [s[0]] + s[1..];
      [x] + s
    else
      var tail := Insert(x, s[1..]);
      assert s == [s[0]] + s[1..];
      AfterHeadSorted(x, s, tail);
      [s[0]] + tail
  }

  /** An entry strictly newer than the head of a sorted list may go first. */
  lemma BeforeHeadSorted(x: Entry, s: seq<Entry>)
    requires s != [] && Compare(x, s[0]) == Less
    ensures Sorted(s) ==> Sorted([x] + s)
  {
    if Sorted(s) {
      var r := [x] + s;
      forall j | 0 < j < |r| ensures NoLater(x, r[j]) {
        CompareIsTotalPreorder(x, s[0], r[j]);
      }
    }
  }

  /** The head of a sorted list stays first when `x`, which does not sort
      strictly before it, is inserted into the rest. */
  lemma AfterHeadSorted(x: Entry, s: seq<Entry>, tail: seq<Entry>)
    requires s != [] && Compare(x, s[0]) != Less
    requires multiset(tail) == multiset(s[1..]) + multiset{x}
    requires Sorted(s[1..]) ==> Sorted(tail)
    ensures Sorted(s) ==> Sorted([s[0]] + tail)
  {
    if Sorted(s) {
      assert Sorted(s[1..]);
      var r := [s[0]] + tail;
      forall j | 0 < j < |r| ensures NoLater(s[0], r[j]) {
        assert r[j] in multiset(tail);
        if r[j] != x {
          assert r[j] in s[1..];
        }
      }
    }
  }

  /** `sort_by(Compare)`: a stable insertion sort. */
  function SortLogs(s: seq<Entry>): (r: seq<Entry>)
    ensures multiset(r) == multiset(s)
    ensures Sorted(r)
  {
    if s == [] then []
    else
      assert s == s[..|s| - 1] + [s[|s| - 1]];
      Insert(s[|s| - 1], SortLogs(s[..|s| - 1]))
  }

  /** `cleanup_old_logs` without the I/O: the logs sorted newest first, split
      after the first `maxFiles`; the second part is what gets deleted. */
  function Retention(entries: seq<Entry>, maxFiles: nat): (r: (seq<Entry>, seq<Entry>))
    ensures multiset(r.0 + r.1) == multiset(Logs(entries))
    ensures |Logs(entries)| <= maxFiles ==> r.1 == []
    ensures |Logs(entries)| > maxFiles ==> |r.0| == maxFiles && |r.1| == |Logs(entries)| - maxFiles
    ensures Sorted(r.0 + r.1)
  {
    var logs := SortLogs(Logs(entries));
    SameCount(logs, Logs(entries));
    var cut := if |logs| > maxFiles then maxFiles else |logs|;
    SplitRejoins(logs, cut);
    (logs[..cut], logs[cut..])
  }

  lemma SameCount(a: seq<Entry>, b: seq<Entry>)
    requires multiset(a) == multiset(b)
    ensures |a| == |b|
  {
    assert |multiset(a)| == |a| && |multiset(b)| == |b|;
  }

  /** Splitting a list and joining the parts keeps its contents and order. */
  lemma SplitRejoins(s: seq<Entry>, k: nat)
    requires k <= |s|
    ensures s[..k] + s[k..] == s
    ensures multiset(s[..k] + s[k..]) == multiset(s)
    ensures Sorted(s) ==> Sorted(s[..k] + s[k..])
  {
    assert s[..k] + s[k..] == s;
  }

  /** The paths of the given entries, in order. */
  function Paths(es: seq<Entry>): (ps: seq<string>)
    ensures |ps| == |es|
    ensures forall i :: 0 <= i < |ps| ==> ps[i] == es[i].path
  {
    seq(|es|, i requires 0 <= i < |es| => es[i].path)
  }

  /** The paths `cleanup_old_logs` deletes with the default bound. */
  function ToDelete(entries: seq<Entry>): (paths: seq<string>)
    ensures |paths| == if |Logs(entries)| > MAX_LOG_FILES then |Logs(entries)| - MAX_LOG_FILES else 0
    ensures |paths| == |Retention(entries, MAX_LOG_FILES).1|
    ensures forall i :: 0 <= i < |paths| ==> paths[i] == Retention(entries, MAX_LOG_FILES).1[i].path
  {
    Paths(Retention(entries, MAX_LOG_FILES).1)
  }

  /** Only logs are deleted. */
  lemma DeletesOnlyLogs(entries: seq<Entry>, maxFiles: nat)
    ensures forall e :: e in Retention(entries, maxFiles).1 ==> e in entries && IsLog(e)
  {
    var (kept, removed) := Retention(entries, maxFiles);
    forall e | e in removed ensures e in entries && IsLog(e) {
      assert e in multiset(kept + removed);
    }
  }

  /** Every kept log is at least as new as every deleted one: between two
      timed entries the kept one is no older, and a kept entry without a time
      means the deleted one has none either. */
  lemma KeptAreNewest(entries: seq<Entry>, maxFiles: nat)
    ensures var (kept, removed) := Retention(entries, maxFiles);
            forall k, d :: k in kept && d in removed ==>
              && (k.modified.Some? && d.modified.Some? ==> k.modified.value >= d.modified.value)
              && (k.modified.None? ==> d.modified.None?)
  {
  }
}

=== FILE: output.dfy ===
/** The history entry type shared by the backend and the frontend
    (`OutputLine`, `NotificationLevel`), its two accessors, and its
    adjacently tagged serialised form: the variant name under "type" and
    the variant's fields under "data". */
module Output {
  import opened Wrappers
  import opened Strings

  datatype NotificationLevel = Info | Warning | Error

  /** One line of terminal history; timestamps are Unix milliseconds. */
  datatype OutputLine =
    | Command(text: string, timestamp: U64)
    | Stdout(text: string, timestamp: U64)
    | Stderr(text: string, timestamp: U64)
    | Notification(message: string, level: NotificationLevel, timestamp: U64)

  /** `OutputLine::timestamp`: the same field name in every variant. */
  function Timestamp(l: OutputLine): (t: U64)
    ensures t == l.timestamp
  {
    match l
    case Command(_, ts) => ts
    case Stdout(_, ts) => ts
    case Stderr(_, ts) => ts
    case Notification(_, _, ts) => ts
  }

  /** `OutputLine::text`: the text of a command or stream line, the message of a notification. */
  function Text(l: OutputLine): (s: string)
    ensures !l.Notification? ==> s == l.text
    ensures l.Notification? ==> s == l.message
  {
    match l
    case Command(t, _) => t
    case Stdout(t, _) => t
    case Stderr(t, _) => t
    case Notification(m, _, _) => m
  }

  // ---------------------------------------------------------------------------
  // Serialised form (`#[serde(tag = "type", content = "data")]`)
  // ---------------------------------------------------------------------------

  /** A JSON value tree, as far as the encoding needs one. */
  datatype Json =
    | JString(str: string)
    | JNumber(num: int)
    | JObject(fields: seq<(string, Json)>)

  /** Value of the first field named `key`, if any. */
  function Field(fields: seq<(string, Json)>, key: string): (r: Option<Json>)
    ensures r.Some? <==> exists i :: 0 <= i < |fields| && fields[i].0 == key
    ensures r.Some? ==> exists i :: 0 <= i < |fields| && fields[i] == (key, r.value)
  {
    if fields == [] then None
    else if fields[0].0 == key then Some(fields[0].1)
    else
      var r := Field(fields[1..], key);
      assert forall i :: 0 < i < |fields| ==> fields[i] == fields[1..][i - 1];
      r
  }

  function LevelName(level: NotificationLevel): string {
    match level
    case Info => "Info"
    case Warning => "Warning"
    case Error => "Error"
  }

  function VariantName(l: OutputLine): string {
    match l
    case Command(_, _) => "Command"
    case Stdout(_, _) => "Stdout"
    case Stderr(_, _) => "Stderr"
    case Notification(_, _, _) => "Notification"
  }

  /** The fields of the variant, in declaration order. */
  function Payload(l: OutputLine): seq<(string, Json)> {
    match l
    case Notification(m, lv, ts) =>
      [("message", JString(m)), ("level", JString(LevelName(lv))), ("timestamp", JNumber(ts))]
    case _ => [("text", JString(Text(l))), ("timestamp", JNumber(Timestamp(l)))]
  }

  function Encode(l: OutputLine): (j: Json)
    ensures j.JObject? && Field(j.fields, "type") == Some(JString(VariantName(l)))
    ensures Field(j.fields, "data") == Some(JObject(Payload(l)))
  {
    JObject([("type", JString(VariantName(l))), ("data", JObject(Payload(l)))])
  }

  function DecodeLevel(j: Json): (r: Result<NotificationLevel, string>)
    ensures r.Ok? ==> j == JString(LevelName(r.value))
  {
    if j == JString("Info") then Ok(Info)
    else if j == JString("Warning") then Ok(Warning)
    else if j == JString("Error") then Ok(Error)
    else Err("unknown variant")
  }

  function DecodeString(o: Option<Json>, name: string): Result<string, string> {
    match o
    case Some(JString(s)) => Ok(s)
    case Some(_) => Err("invalid type for field " + name)
    case None => Err("missing field " + name)
  }

  /** A `u64` field: a number in `0 .. 2^64`. */
  function DecodeU64(o: Option<Json>, name: string): (r: Result<U64, string>)
    ensures r.Ok? ==> o == Some(JNumber(r.value))
  {
    match o
    case Some(JNumber(n)) =>
      if 0 <= n < 0x1_0000_0000_0000_0000 then Ok(n) else Err("invalid value for field " + name)
    case Some(_) => Err("invalid type for field " + name)
    case None => Err("missing field " + name)
  }

  /** The "data" object of a notification. */
  function DecodeNotification(data: seq<(string, Json)>): (r: Result<OutputLine, string>)
    ensures r.Ok? ==> r.value.Notification?
  {
    match (DecodeString(Field(data, "message"), "message"), Field(data, "level"),
           DecodeU64(Field(data, "timestamp"), "timestamp"))
    case (Err(e), _, _) => Err(e)
    case (_, None, _) => Err("missing field level")
    case (_, _, Err(e)) => Err(e)
    case (Ok(m), Some(lv), Ok(ts)) =>
      match DecodeLevel(lv)
      case Ok(level) => Ok(Notification(m, level, ts))
      case Err(e) => Err(e)
  }

  /** The "data" object of a command or stream line: its text and timestamp. */
  function DecodeTextFields(data: seq<(string, Json)>): Result<(string, U64), string> {
    match (DecodeString(Field(data, "text"), "text"), DecodeU64(Field(data, "timestamp"), "timestamp"))
    case (Err(e), _) => Err(e)
    case (_, Err(e)) => Err(e)
    case (Ok(t), Ok(ts)) => Ok((t, ts))
  }

  /** The "data" object of the variant named `tag`. */
  function DecodeData(tag: Json, data: seq<(string, Json)>): (r: Result<OutputLine, string>)
    ensures r.Ok? ==> tag == JString(VariantName(r.value))
  {
    if tag == JString("Notification") then DecodeNotification(data)
    else if tag == JString("Command") || tag == JString("Stdout") || tag == JString("Stderr") then
      match DecodeTextFields(data)
      case Err(e) => Err(e)
      case Ok((t, ts)) =>
        if tag == JString("Command") then Ok(Command(t, ts))
        else if tag == JString("Stdout") then Ok(Stdout(t, ts))
        else Ok(Stderr(t, ts))
    else Err("unknown variant")
  }

  /** Decodes a serialised line. Fields other than the expected ones are ignored,
      as serde does without `deny_unknown_fields`. */
  function Decode(j: Json): (r: Result<OutputLine, string>)
    ensures r.Ok? ==> j.JObject? && Field(j.fields, "type") == Some(JString(VariantName(r.value)))
  {
    if !j.JObject? then Err("expected an object")
    else
      match (Field(j.fields, "type"), Field(j.fields, "data"))
      case (None, _) => Err("missing field type")
      case (_, None) => Err("missing field data")
      case (Some(tag), Some(JObject(data))) => DecodeData(tag, data)
      case (Some(_), Some(_)) => Err("invalid type for field data")
  }

  /** `Field` finds the value stored under a key that occurs exactly once. */
  lemma FieldOfUnique(fields: seq<(string, Json)>, i: nat)
    requires i < |fields|
    requires forall k :: 0 <= k < |fields| && k != i ==> fields[k].0 != fields[i].0
    ensures Field(fields, fields[i].0) == Some(fields[i].1)
  {
    if i > 0 {
      FieldOfUnique(fields[1..], i - 1);
    }
  }

  /** Decoding the encoding of a line gives the line back. */
  lemma EncodeDecodeRoundTrip(l: OutputLine)
    ensures Decode(Encode(l)) == Ok(l)
  {
    var data := Payload(l);
    assert DecodeData(JString(VariantName(l)), data) == Ok(l) by {
      if l.Notification? {
        NotificationDataRoundTrip(l);
      } else {
        TextDataRoundTrip(l);
      }
    }
  }

  lemma NotificationDataRoundTrip(l: OutputLine)
    requires l.Notification?
    ensures DecodeNotification(Payload(l)) == Ok(l)
  {
    var data := Payload(l);
    FieldOfUnique(data, 0);
    FieldOfUnique(data, 1);
    FieldOfUnique(data, 2);
    assert DecodeLevel(JString(LevelName(l.level))) == Ok(l.level);
  }

  lemma TextDataRoundTrip(l: OutputLine)
    requires !l.Notification?
    ensures DecodeTextFields(Payload(l)) == Ok((l.text, l.timestamp))
  {
    var data := Payload(l);
    FieldOfUnique(data, 0);
    FieldOfUnique(data, 1);
  }

  /** The accessors read exactly what the encoding stores: `Text` is the
      "text" or "message" field of "data", `Timestamp` its "timestamp" field. */
  lemma AccessorsMatchEncoding(l: OutputLine)
    ensures Field(Payload(l), if l.Notification? then "message" else "text") == Some(JString(Text(l)))
    ensures Field(Payload(l), "timestamp") == Some(JNumber(Timestamp(l)))
  {
    var data := Payload(l);
    FieldOfUnique(data, 0);
    FieldOfUnique(data, |data| - 1);
  }
}

=== FILE: output_display.dfy ===
/** Rendering helpers of the output pane: the text shown for a line, and the
    "sticky bottom" test that decides whether new output scrolls into view. */
module OutputDisplay {
  import opened Strings
  import opened Output

  /** U+26A0 WARNING SIGN followed by U+FE0F VARIATION SELECTOR-16. */
  const WARNING_SIGN: string := "\U{26A0}\U{FE0F}"

  /** What is written in front of a line's text when it is shown. */
  function Marker(l: OutputLine): string {
    match l
    case Command(_, _) => "$ "
    case Stdout(_, _) => ""
    case Stderr(_, _) => ""
    case Notification(_, _, _) => WARNING_SIGN + "  "
  }

  /** `format_line_content`: commands as "$ " and the text, stream lines as
      their text, notifications as the warning sign, two spaces, the message. */
  function FormatLineContent(l: OutputLine): (r: string)
    ensures l.Command? ==> r == "$ " + l.text
    ensures l.Stdout? || l.Stderr? ==> r == l.text
    ensures l.Notification? ==> r == WARNING_SIGN + "  " + l.message
  {
    match l
    case Command(t, _) => "$ " + t
    case Stdout(t, _) => t
    case Stderr(t, _) => t
    case Notification(m, _, _) => WARNING_SIGN + "  " + m
  }

  /** The shown content is the line's marker followed by exactly its `text()`. */
  lemma ContentIsMarkerThenText(l: OutputLine)
    ensures FormatLineContent(l) == Marker(l) + Text(l)
    ensures IsPrefix(Marker(l), FormatLineContent(l))
    ensures FormatLineContent(l)[|Marker(l)|..] == Text(l)
  {
    assert FormatLineContent(l) == Marker(l) + Text(l);
  }

  /** Two's-complement wrap-around of an `i32` sum or difference. */
  function WrapI32(x: int): (r: I32)
    ensures -0x8000_0000 <= x < 0x8000_0000 ==> r == x
  {
    (x + 0x8000_0000) % 0x1_0000_0000 - 0x8000_0000
  }

  /** The test in `on_scroll`: `scroll_top + client_height >= scroll_height - 10`
      in `i32` arithmetic. */
  function AtBottom(scrollTop: I32, clientHeight: I32, scrollHeight: I32): bool {
    WrapI32(scrollTop + clientHeight) >= WrapI32(scrollHeight - 10)
  }

  /** For the metrics a page reports (non-negative, and small enough that the
      sum does not overflow), the pane is sticky exactly when its visible
      bottom is within 10 pixels of the content's end. */
  lemma AtBottomMeansWithinTen(scrollTop: I32, clientHeight: I32, scrollHeight: I32)
    requires 0 <= scrollTop && 0 <= clientHeight && 0 <= scrollHeight
    requires scrollTop + clientHeight < 0x8000_0000
    ensures AtBottom(scrollTop, clientHeight, scrollHeight) <==> scrollHeight - (scrollTop + clientHeight) <= 10
  {
  }
}

=== FILE: prompt.dfy ===
/** The prompt's directory label (`format_cwd` in the prompt indicator). The
    home directory, which the source reads from browser storage, is a
    parameter. */
module Prompt {
  import opened Wrappers
  import opened Strings

  /** Paths longer than this many UTF-8 bytes are shortened. */
  const MAX_DISPLAY_BYTES: nat := 50

  /** `format_cwd`. Without a home directory the path is shown as is. A path
      starting with the home directory (a plain string-prefix test) has that
      prefix replaced by "~". Otherwise a path of more than 50 bytes with more
      than three `/`-separated parts is shown as ".../" and its last two parts. */
  function FormatCwd(cwd: string, home: Option<string>): (r: string)
    ensures home.None? ==> r == cwd
    ensures home.Some? && IsPrefix(home.value, cwd) ==> r == "~" + cwd[|home.value|..]
    ensures home.Some? && !IsPrefix(home.value, cwd) && Utf8Len(cwd) > MAX_DISPLAY_BYTES && CountChar(cwd, '/') >= 3 ==>
              var parts := Split(cwd, '/');
              r == ".../" + parts[|parts| - 2] + "/" + parts[|parts| - 1]
    ensures home.Some? && !IsPrefix(home.value, cwd) && (Utf8Len(cwd) <= MAX_DISPLAY_BYTES || CountChar(cwd, '/') < 3) ==>
              r == cwd
  {
    match home
    case None => cwd
    case Some(h) =>
      if IsPrefix(h, cwd) then
        var stripped := cwd[|h|..];
        if stripped == "" then "~" else "~" + stripped
      else if Utf8Len(cwd) > MAX_DISPLAY_BYTES then
        var parts := Split(cwd, '/');
        if |parts| > 3 then ".../" + parts[|parts| - 2] + "/" + parts[|parts| - 1] else cwd
      else
        cwd
  }

  /** Reads a label back as a path: a leading "~" stands for the home directory. */
  function ExpandHome(shown: string, home: string): string {
    if IsPrefix("~", shown) then home + shown[1..] else shown
  }

  /** Home abbreviation loses nothing: expanding "~" again gives the path back.
      The directory itself becomes exactly "~". */
  lemma HomeAbbreviationRoundTrip(cwd: string, home: string)
    requires IsPrefix(home, cwd)
    ensures ExpandHome(FormatCwd(cwd, Some(home)), home) == cwd
    ensures cwd == home ==> FormatCwd(cwd, Some(home)) == "~"
  {
    assert home + cwd[|home|..] == cwd;
  }

  /** The prefix test is on characters, not path components: with home
      "/home/a", the directory "/home/ab" is shown as "~b". */
  lemma PrefixIsNotComponentwise()
    ensures FormatCwd("/home/ab", Some("/home/a")) == "~b"
  {
    assert IsPrefix("/home/a", "/home/ab");
  }

  /** A shortened label keeps the path's last two components: after ".../"
      it is a `/`-free name, "/", and a `/`-free name, and with a "/" in front
      that text ends the original path. */
  lemma TruncationKeepsLastTwo(cwd: string, home: string)
    requires !IsPrefix(home, cwd) && Utf8Len(cwd) > MAX_DISPLAY_BYTES && CountChar(cwd, '/') >= 3
    ensures var r := FormatCwd(cwd, Some(home));
            exists a, b :: && r == ".../" + a + "/" + b
                           && '/' !in a && '/' !in b
                           && IsSuffix("/" + a + "/" + b, cwd)
  {
    var parts := Split(cwd, '/');
    var a, b := parts[|parts| - 2], parts[|parts| - 1];
    JoinEndsWithLastTwo(parts, '/');
    assert "/" + a + "/" + b == ['/'] + a + ['/'] + b;
    assert FormatCwd(cwd, Some(home)) == ".../" + a + "/" + b;
  }
}

=== FILE: session.dfy ===
/** The backend's session state (`ShellState`) and the manager that pairs it
    with the history buffer (`ShellManager`). Each field sits behind its own
    async mutex in the source; every method is modelled as one atomic step on
    an immutable record, and a clone is the same state. */
module Session {
  import opened Wrappers
  import opened Strings
  import History

  /** A process ID as the OS reports it (`u32`). */
  type Pid = U32

  /** An owned child-process handle. `handle` tells handles apart; `id` is what
      `Child::id` reports (none once the child has been reaped). */
  datatype Child = Child(handle: nat, id: Option<Pid>)

  datatype ShellState = ShellState(process: Option<Child>, pid: Option<Pid>, cwd: string, busy: bool)

  /** `ShellState::new`: idle, no process, the given directory. */
  function New(initialCwd: string): (s: ShellState)
    ensures GetCwd(s) == initialCwd && !IsBusy(s)
    ensures GetPid(s).None? && s.process.None?
  {
    ShellState(None, None, initialCwd, false)
  }

  function GetCwd(s: ShellState): string {
    s.cwd
  }

  /** `set_cwd`: reads back as `cwd`; nothing else changes. */
  function SetCwd(s: ShellState, cwd: string): (r: ShellState)
    ensures GetCwd(r) == cwd
    ensures r.busy == s.busy && r.pid == s.pid && r.process == s.process
  {
    s.(cwd := cwd)
  }

  function IsBusy(s: ShellState): bool {
    s.busy
  }

  /** `set_busy`: reads back as `busy`; nothing else changes. */
  function SetBusy(s: ShellState, busy: bool): (r: ShellState)
    ensures IsBusy(r) == busy
    ensures r.cwd == s.cwd && r.pid == s.pid && r.process == s.process
  {
    s.(busy := busy)
  }

  /** `try_set_busy`: the test-and-set. From idle it succeeds and makes the
      state busy; when already busy it fails and changes nothing. */
  function TrySetBusy(s: ShellState): (r: (bool, ShellState))
    ensures r.0 <==> !IsBusy(s)
    ensures IsBusy(r.1)
    ensures r.0 ==> r.1 == SetBusy(s, true)
    ensures !r.0 ==> r.1 == s
  {
    if s.busy then (false, s) else (true, s.(busy := true))
  }

  function GetPid(s: ShellState): Option<Pid> {
    s.pid
  }

  /** `get_pid_if_busy`: the stored PID while busy, none while idle even if a
      PID is still stored. */
  function GetPidIfBusy(s: ShellState): (r: Option<Pid>)
    ensures IsBusy(s) ==> r == GetPid(s)
    ensures !IsBusy(s) ==> r.None?
  {
    if s.busy then s.pid else None
  }

  /** `set_process`: stores the handle and records its ID as the PID. */
  function SetProcess(s: ShellState, child: Child): (r: ShellState)
    ensures r.process == Some(child) && GetPid(r) == child.id
    ensures r.cwd == s.cwd && r.busy == s.busy
  {
    s.(process := Some(child), pid := child.id)
  }

  /** `take_process`: hands the stored handle out and leaves neither handle nor PID. */
  function TakeProcess(s: ShellState): (r: (Option<Child>, ShellState))
    ensures r.0 == s.process
    ensures r.1.process.None? && GetPid(r.1).None?
    ensures r.1.cwd == s.cwd && r.1.busy == s.busy
  {
    (s.process, s.(process := None, pid := None))
  }

  /** `clear_process`: drops the handle and the PID. */
  function ClearProcess(s: ShellState): (r: ShellState)
    ensures r.process.None? && GetPid(r).None?
    ensures r.cwd == s.cwd && r.busy == s.busy
  {
    s.(process := None, pid := None)
  }

  /** Two test-and-sets in a row from idle: the first wins, the second loses,
      and the state stays busy. */
  lemma TrySetBusyTwice(s: ShellState)
    requires !IsBusy(s)
    ensures var (first, s1) := TrySetBusy(s);
            var (second, s2) := TrySetBusy(s1);
            first && !second && IsBusy(s2) && s2 == s1 && s2 == SetBusy(s, true)
  {
  }

  /** Taking the process just set returns that handle and leaves the state
      as clearing would. */
  lemma TakeAfterSet(s: ShellState, child: Child)
    ensures TakeProcess(SetProcess(s, child)) == (Some(child), ClearProcess(s))
  {
  }

  // ---------------------------------------------------------------------------
  // ShellManager
  // ---------------------------------------------------------------------------

  datatype ShellManager = ShellManager(shellState: ShellState, history: History.HistoryBuffer)

  /** `ShellManager::with_capacity_and_cwd`; `new_with_cwd` is the default
      capacity. (`new` and `with_capacity` take the process's current directory,
      which the caller passes here.) */
  function WithCapacityAndCwd(capacity: nat, initialCwd: string): (m: ShellManager)
    ensures m.shellState == New(initialCwd)
    ensures m.history == History.New(capacity)
  {
    ShellManager(New(initialCwd), History.New(capacity))
  }

  function NewWithCwd(initialCwd: string): (m: ShellManager)
    ensures m == WithCapacityAndCwd(History.DEFAULT_CAPACITY, initialCwd)
  {
    ShellManager(New(initialCwd), History.New(History.DEFAULT_CAPACITY))
  }

  function ManagerGetCwd(m: ShellManager): string {
    GetCwd(m.shellState)
  }

  function ManagerIsBusy(m: ShellManager): bool {
    IsBusy(m.shellState)
  }

  /** `ShellManager::try_set_busy`: the session's test-and-set; history untouched. */
  function ManagerTrySetBusy(m: ShellManager): (r: (bool, ShellManager))
    ensures r.0 <==> !ManagerIsBusy(m)
    ensures ManagerIsBusy(r.1) && r.1.history == m.history
    ensures !r.0 ==> r.1 == m
    ensures r.1 == m.(shellState := TrySetBusy(m.shellState).1)
    ensures r.0 ==> r.1 == m.(shellState := m.shellState.(busy := true))
  {
    var (ok, s) := TrySetBusy(m.shellState);
    (ok, m.(shellState := s))
  }

  /** `get_running_pid`: the PID only while busy. */
  function GetRunningPid(m: ShellManager): (r: Option<Pid>)
    ensures r == GetPidIfBusy(m.shellState)
    ensures r.Some? ==> ManagerIsBusy(m) && r == GetPid(m.shellState)
  {
    GetPidIfBusy(m.shellState)
  }
}

=== FILE: strings.dfy ===
/** String helpers that the Rust code gets from `str` and `format!`:
    prefix and substring tests, `char::is_whitespace`, `split('/')`,
    UTF-8 byte length, and the `{:x}` / `{}` integer formats. */
module Strings {

  /** Fixed-width machine integers of the source. */
  type U64 = x: int | 0 <= x < 0x1_0000_0000_0000_0000
  type U32 = x: int | 0 <= x < 0x1_0000_0000
  type I32 = x: int | -0x8000_0000 <= x < 0x8000_0000

  /** `s.starts_with(p)` */
  predicate IsPrefix(p: string, s: string) {
    |p| <= |s| && s[..|p|] == p
  }

  /** `s.ends_with(p)`, for strings and for any other sequence. */
  predicate IsSuffix<T(==)>(p: seq<T>, s: seq<T>) {
    |p| <= |s| && s[|s| - |p|..] == p
  }

  /** `sub` occurs in `s` starting at index `k`. */
  predicate OccursAt(s: string, sub: string, k: int) {
    0 <= k && k + |sub| <= |s| && s[k..k + |sub|] == sub
  }

  /** `s.contains(sub)`: some window of `s` equals `sub`. */
  function Contains(s: string, sub: string): (r: bool)
    ensures r <==> exists k :: OccursAt(s, sub, k)
    decreases |s|
  {
    if IsPrefix(sub, s) then
      assert OccursAt(s, sub, 0);
      true
    else if |s| == 0 then
      false
    else
      var r := Contains(s[1..], sub);
      assert forall k :: OccursAt(s[1..], sub, k) <==> OccursAt(s, sub, k + 1);
      assert !OccursAt(s, sub, 0);
      assert forall k :: OccursAt(s, sub, k) ==> k == 0 || OccursAt(s[1..], sub, k - 1);
      r
  }

  /** Rust's `char::is_whitespace`: the Unicode White_Space property. */
  predicate IsWhitespace(c: char) {
    || ('\t' <= c <= '\r')
    || c == ' '
    || c == '\U{0085}'
    || c == '\U{00A0}'
    || c == '\U{1680}'
    || ('\U{2000}' <= c <= '\U{200A}')
    || c == '\U{2028}'
    || c == '\U{2029}'
    || c == '\U{202F}'
    || c == '\U{205F}'
    || c == '\U{3000}'
  }

  /** `s.trim().is_empty()`: every character is whitespace. */
  predicate IsBlank(s: string) {
    forall i :: 0 <= i < |s| ==> IsWhitespace(s[i])
  }

  /** Number of occurrences of `c` in `s`. */
  function CountChar(s: string, c: char): nat {
    if s == [] then 0 else (if s[0] == c then 1 else 0) + CountChar(s[1..], c)
  }

  /** Joins non-empty `parts` with the separator `c` (the inverse of `Split`). */
  function Join(parts: seq<string>, c: char): string
    requires |parts| >= 1
  {
    if |parts| == 1 then parts[0] else parts[0] + [c] + Join(parts[1..], c)
  }

  /** `s.split(c).collect::<Vec<_>>()`: the maximal `c`-free pieces between
      separators, empty pieces included; there is always at least one. */
  function Split(s: string, c: char): (parts: seq<string>)
    ensures |parts| == CountChar(s, c) + 1
    ensures Join(parts, c) == s
    ensures forall i :: 0 <= i < |parts| ==> c !in parts[i]
  {
    if s == [] then
      [""]
    else
      var rest := Split(s[1..], c);
      if s[0] == c then
        [""] + rest
      else
        assert |rest| > 1 ==> Join(rest, c) == rest[0] + [c] + Join(rest[1..], c);
        [[s[0]] + rest[0]] + rest[1..]
  }

  /** The last two pieces of a join of three or more, with the separators in
      front of each, end the joined string. */
  lemma {:induction false} JoinEndsWithLastTwo(parts: seq<string>, c: char)
    requires |parts| >= 3
    ensures IsSuffix([c] + parts[|parts| - 2] + [c] + parts[|parts| - 1], Join(parts, c))
    decreases |parts|
  {
    var n := |parts|;
    var tail := [c] + parts[n - 2] + [c] + parts[n - 1];
    if n == 3 {
      assert Join(parts[1..], c) == parts[1] + [c] + Join(parts[2..], c);
      assert Join(parts, c) == parts[0] + tail;
    } else {
      JoinEndsWithLastTwo(parts[1..], c);
      assert parts[1..][|parts[1..]| - 2] == parts[n - 2];
      var rest := Join(parts[1..], c);
      assert Join(parts, c) == (parts[0] + [c]) + rest;
      assert IsSuffix(tail, rest);
      assert Join(parts, c)[|Join(parts, c)| - |tail|..] == rest[|rest| - |tail|..];
    }
  }

  /** Number of bytes of the UTF-8 encoding of `c`. */
  function Utf8Width(c: char): nat {
    if c < '\U{0080}' then 1
    else if c < '\U{0800}' then 2
    else if c < '\U{10000}' then 3
    else 4
  }

  /** `s.len()` of a Rust `String`: its length in UTF-8 bytes. */
  function Utf8Len(s: string): (n: nat)
    ensures |s| <= n <= 4 * |s|
  {
    if s == [] then 0 else Utf8Width(s[0]) + Utf8Len(s[1..])
  }

  function Pow16(w: nat): (p: nat)
    ensures p >= 1
  {
    if w == 0 then 1 else 16 * Pow16(w - 1)
  }

  /** Sixteen hex digits hold exactly the `u64` range. */
  lemma Pow16Is2To64()
    ensures Pow16(16) == 0x1_0000_0000_0000_0000
  {
    assert Pow16(4) == 0x1_0000;
    assert Pow16(8) == 0x1_0000 * Pow16(4) by {
      assert Pow16(8) == 16 * 16 * 16 * 16 * Pow16(4);
    }
    assert Pow16(12) == 0x1_0000 * Pow16(8) by {
      assert Pow16(12) == 16 * 16 * 16 * 16 * Pow16(8);
    }
    assert Pow16(16) == 0x1_0000 * Pow16(12) by {
      assert Pow16(16) == 16 * 16 * 16 * 16 * Pow16(12);
    }
  }

  /** The lowercase hexadecimal digit for `d < 16`. */
  function HexDigit(d: nat): char
    requires d < 16
  {
    "0123456789abcdef"[d]
  }

  /** A digit `{:x}` may print: `0`-`9` or lowercase `a`-`f`. */
  predicate IsLowerHexDigit(c: char) {
    '0' <= c <= '9' || 'a' <= c <= 'f'
  }

  /** Value of a hexadecimal digit, or 16 for a character that is not one. */
  function HexValue(c: char): nat {
    if '0' <= c <= '9' then (c - '0') as nat
    else if 'a' <= c <= 'f' then (c - 'a') as nat + 10
    else if 'A' <= c <= 'F' then (c - 'A') as nat + 10
    else 16
  }

  /** `format!("{n:0w$x}")` for `n < 16^w`: exactly `w` lowercase digits, zero-padded. */
  function Hex(n: nat, w: nat): (s: string)
    ensures |s| == w
    ensures forall i :: 0 <= i < |s| ==> IsLowerHexDigit(s[i])
    ensures forall i :: 0 <= i < |s| ==> HexValue(s[i]) < 16
  {
    if w == 0 then "" else Hex(n / 16, w - 1) + [HexDigit(n % 16)]
  }

  /** Reads a string of hexadecimal digits, most significant first. */
  function ParseHex(s: string): nat {
    if s == [] then 0 else ParseHex(s[..|s| - 1]) * 16 + HexValue(s[|s| - 1]) % 16
  }

  /** Reading back a `w`-digit rendering gives the number, so distinct numbers
      below `16^w` get distinct renderings. */
  lemma {:induction false} HexRoundTrip(n: nat, w: nat)
    requires n < Pow16(w)
    ensures ParseHex(Hex(n, w)) == n
  {
    if w > 0 {
      var q, d := n / 16, n % 16;
      QuotientBelow(n, Pow16(w - 1));
      HexRoundTrip(q, w - 1);
      var h := Hex(q, w - 1);
      assert Hex(n, w) == h + [HexDigit(d)];
      HexDigitValue(d);
      ParseHexSnoc(h, HexDigit(d));
      assert ParseHex(h + [HexDigit(d)]) == q * 16 + d;
    }
  }

  lemma QuotientBelow(n: nat, p: nat)
    requires n < 16 * p
    ensures n / 16 < p
  {
  }

  /** Appending a digit shifts the value read so far by one hex place. */
  lemma ParseHexSnoc(s: string, c: char)
    ensures ParseHex(s + [c]) == ParseHex(s) * 16 + HexValue(c) % 16
  {
    assert (s + [c])[..|s|] == s;
  }

  lemma HexDigitValue(d: nat)
    requires d < 16
    ensures HexValue(HexDigit(d)) % 16 == d
  {
  }

  /** The decimal digit for `d < 10`. */
  function DecimalDigit(d: nat): char
    requires d < 10
  {
    "0123456789"[d]
  }

  /** `format!("{n}")` for a natural number: shortest decimal, no leading zeros. */
  function NatToDecimal(n: nat): (s: string)
    ensures |s| >= 1
    ensures forall i :: 0 <= i < |s| ==> '0' <= s[i] <= '9'
    ensures |s| > 1 ==> s[0] != '0'
  {
    if n < 10 then [DecimalDigit(n)] else NatToDecimal(n / 10) + [DecimalDigit(n % 10)]
  }

  /** Reads a string of decimal digits, most significant first. */
  function ParseDecimal(s: string): nat {
    if s == [] then 0
    else ParseDecimal(s[..|s| - 1]) * 10 + (if '0' <= s[|s| - 1] <= '9' then (s[|s| - 1] - '0') as nat else 0)
  }

  lemma DigitValue(d: nat)
    requires d < 10
    ensures '0' <= DecimalDigit(d) <= '9' && (DecimalDigit(d) - '0') as nat == d
  {
  }

  lemma {:induction false} DecimalRoundTrip(n: nat)
    ensures ParseDecimal(NatToDecimal(n)) == n
  {
    var s := NatToDecimal(n);
    if n < 10 {
      DigitValue(n);
      assert s[..|s| - 1] == [];
    } else {
      assert s[..|s| - 1] == NatToDecimal(n / 10);
      assert s[|s| - 1] == DecimalDigit(n % 10);
      DigitValue(n % 10);
      DecimalRoundTrip(n / 10);
      assert ParseDecimal(s) == (n / 10) * 10 + n % 10;
    }
  }

  /** `format!("{i}")` for a signed integer. */
  function IntToDecimal(i: int): (s: string)
    ensures |s| >= 1
    ensures i < 0 <==> s[0] == '-'
    ensures i >= 0 ==> ParseDecimal(s) == i
    ensures i < 0 ==> ParseDecimal(s[1..]) == -i
    ensures var d := if i < 0 then 1 else 0;
            && d < |s|
            && (forall k :: d <= k < |s| ==> '0' <= s[k] <= '9')
            && (|s| > d + 1 ==> s[d] != '0')
  {
    if i < 0 then
      DecimalRoundTrip(-i);
      assert ("-" + NatToDecimal(-i))[1..] == NatToDecimal(-i);
      "-" + NatToDecimal(-i)
    else
      DecimalRoundTrip(i);
      NatToDecimal(i)
  }

  /** Distinct integers render differently. */
  lemma IntToDecimalInjective(i: int, j: int)
    requires IntToDecimal(i) == IntToDecimal(j)
    ensures i == j
  {
    if i < 0 {
      assert IntToDecimal(i)[1..] == IntToDecimal(j)[1..];
    }
  }

  /** A string of decimal digits without a leading zero. */
  predicate IsCanonicalDecimal(s: string) {
    && |s| >= 1
    && (forall k :: 0 <= k < |s| ==> '0' <= s[k] <= '9')
    && (|s| > 1 ==> s[0] != '0')
  }

  lemma {:induction false} ParsePositive(s: string)
    requires IsCanonicalDecimal(s) && s[0] != '0'
    ensures ParseDecimal(s) >= 1
    decreases |s|
  {
    if |s| > 1 {
      ParsePositive(s[..|s| - 1]);
    }
  }

  /** `format!("{n}")` is the only canonical rendering of its value. */
  lemma {:induction false} DecimalCanonical(s: string)
    requires IsCanonicalDecimal(s)
    ensures NatToDecimal(ParseDecimal(s)) == s
    decreases |s|
  {
    var p := s[..|s| - 1];
    var c := s[|s| - 1];
    LastDigit(c);
    var d := (c - '0') as nat;
    assert ParseDecimal(s) == ParseDecimal(p) * 10 + d;
    if |s| == 1 {
      assert p == [];
      assert s == [c];
    } else {
      DropLastCanonical(s);
      ParsePositive(p);
      DecimalCanonical(p);
      SplitLastDigit(ParseDecimal(s), ParseDecimal(p), d);
      assert p + [c] == s;
    }
  }

  lemma DropLastCanonical(s: string)
    requires IsCanonicalDecimal(s) && |s| > 1
    ensures IsCanonicalDecimal(s[..|s| - 1]) && s[..|s| - 1][0] != '0'
  {
  }

  lemma LastDigit(c: char)
    requires '0' <= c <= '9'
    ensures (c - '0') as nat < 10 && DecimalDigit((c - '0') as nat) == c
  {
    DigitValue((c - '0') as nat);
  }

  lemma SplitLastDigit(n: nat, q: nat, d: nat)
    requires n == q * 10 + d && q >= 1 && d < 10
    ensures NatToDecimal(n) == NatToDecimal(q) + [DecimalDigit(d)]
  {
    assert n / 10 == q && n % 10 == d;
  }

  /** Every string meeting the contract of `IntToDecimal` is its result: an
      optional `-`, then the canonical digits of the magnitude. */
  lemma IntToDecimalUnique(i: int, s: string)
    requires |s| >= 1 && (i < 0 <==> s[0] == '-')
    requires i >= 0 ==> IsCanonicalDecimal(s) && ParseDecimal(s) == i
    requires i < 0 ==> IsCanonicalDecimal(s[1..]) && ParseDecimal(s[1..]) == -i
    ensures s == IntToDecimal(i)
  {
    if i < 0 {
      DecimalCanonical(s[1..]);
      assert s == "-" + s[1..];
    } else {
      DecimalCanonical(s);
    }
  }
}

=== FILE: terminal_state.dfy ===
/** The frontend's session view (`TerminalState`): the input line, the
    mirrored history, the directory shown in the prompt, the busy flag, the
    notification banner, and the event-listener failure state. The reactive
    signals are modelled as fields of an immutable record. */
module TerminalStateModel {
  import opened Wrappers
  import opened Strings
  import opened Output
  import History

  datatype TerminalState = TerminalState(
    currentInput: string,
    history: seq<OutputLine>,
    cwd: string,
    isBusy: bool,
    notification: Option<string>,
    listenerFailed: bool,
    listenerError: Option<string>)

  /** `TerminalState::new`: empty input and history, directory "~", idle, no
      banner, listener healthy. */
  function New(): (t: TerminalState)
    ensures t.currentInput == "" && t.history == [] && t.cwd == "~"
    ensures !t.isBusy && t.notification.None? && !t.listenerFailed && t.listenerError.None?
    ensures !IsInputDisabled(t)
  {
    TerminalState("", [], "~", false, None, false, None)
  }

  /** `clear_input`: the input becomes empty; nothing else changes. */
  function ClearInput(t: TerminalState): (r: TerminalState)
    ensures r.currentInput == ""
    ensures r.(currentInput := t.currentInput) == t
  {
    t.(currentInput := "")
  }

  /** `push_history`: the line goes at the end; nothing else changes. */
  function PushHistory(t: TerminalState, line: OutputLine): (r: TerminalState)
    ensures |r.history| == |t.history| + 1 && r.history[|t.history|] == line
    ensures r.history[..|t.history|] == t.history
    ensures r.(history := t.history) == t
  {
    t.(history := t.history + [line])
  }

  /** `set_history`: the history is replaced wholesale; nothing else changes. */
  function SetHistory(t: TerminalState, lines: seq<OutputLine>): (r: TerminalState)
    ensures r.history == lines
    ensures r.(history := t.history) == t
  {
    t.(history := lines)
  }

  /** `show_notification` */
  function ShowNotification(t: TerminalState, message: string): (r: TerminalState)
    ensures r.notification == Some(message)
    ensures r.(notification := t.notification) == t
  {
    t.(notification := Some(message))
  }

  /** `clear_notification` */
  function ClearNotification(t: TerminalState): (r: TerminalState)
    ensures r.notification.None?
    ensures r.(notification := t.notification) == t
  {
    t.(notification := None)
  }

  /** `set_listener_failed`: the flag is set and the message recorded. */
  function SetListenerFailed(t: TerminalState, error: string): (r: TerminalState)
    ensures r.listenerFailed && r.listenerError == Some(error)
    ensures IsInputDisabled(r)
    ensures r.(listenerFailed := t.listenerFailed, listenerError := t.listenerError) == t
  {
    t.(listenerFailed := true, listenerError := Some(error))
  }

  /** `is_input_disabled`: while a command runs or after the listener failed. */
  function IsInputDisabled(t: TerminalState): (r: bool)
    ensures r <==> t.isBusy || t.listenerFailed
  {
    t.isBusy || t.listenerFailed
  }

  /** A banner shown and then cleared is gone, and the rest of the state is
      as before. */
  lemma ShowThenClear(t: TerminalState, message: string)
    ensures ClearNotification(ShowNotification(t, message)) == t.(notification := None)
  {
  }

  /** Appending each streamed line keeps the mirror equal to the backend's
      history while the backend has room; once the backend evicts, the two
      differ and `set_history` from `get_history` is what resynchronises them. */
  lemma MirrorFollowsBackendPush(t: TerminalState, b: History.HistoryBuffer, line: OutputLine, now: U64)
    requires t.history == History.GetAll(b)
    ensures |b.lines| < b.capacity ==> PushHistory(t, line).history == History.GetAll(History.Push(b, line, now))
    ensures b.capacity >= 1 && |b.lines| >= b.capacity && History.NoNotifications(b.lines) ==>
              PushHistory(t, line).history != History.GetAll(History.Push(b, line, now))
    ensures SetHistory(PushHistory(t, line), History.GetAll(History.Push(b, line, now))) ==
              t.(history := History.GetAll(History.Push(b, line, now)))
  {
    var r := History.Push(b, line, now);
    if b.capacity >= 1 && |b.lines| >= b.capacity && History.NoNotifications(b.lines) {
      assert b.lines != [];
      if b.warningShown {
        assert |r.lines| == |b.lines|;
      } else {
        assert r.lines[|b.lines| - 1] == History.TruncationWarning(now);
        assert PushHistory(t, line).history[|b.lines| - 1] == b.lines[|b.lines| - 1];
        assert !b.lines[|b.lines| - 1].Notification?;
      }
    }
  }
}

=== FILE: wrappers.dfy ===
/** Failure-carrying result types shared by every module of the model.
    `Option` stands for Rust's `Option<T>` and `Result` for `Result<T, E>`. */
module Wrappers {

  /** An optional value: `None` or `Some(value)`. */
  datatype Option<+T> = None | Some(value: T)

  /** The outcome of a fallible operation: `Ok(value)` or `Err(error)`. */
  datatype Result<+T, +E> = Ok(value: T) | Err(error: E)
}
